=== FILE: README.md ===
# DTX chart player — a verified model of its parser, timeline and trigger logic

This project models the core of `playground/dtx_player.py`, a small player for
DTXMania drum charts (`.dtx` files), and proves properties of the model. It
covers three parts.

- **Reading a chart.** Each `#` line is split into a key and a value. The key
  is upper-cased and the value loses its `;` comment. The line is then
  dispatched:
  - metadata: `TITLE`, `ARTIST`, `BPM`;
  - resource tables: `WAVxx`, `BGMWAV`, `BPMxx`, `VOLUMExx`;
  - channel data `#MMMCC: ...`, which is cut into two-character codes. Every
    code other than `00` becomes a raw event. Channel `02` sets a bar length,
    and the non-note channels are dropped.
- **Building the timeline.** This part makes:
  - a table of the beat at which each bar starts;
  - a global beat for every event, with a stable sort of the events by it;
  - a walk that accumulates time under a piecewise-constant tempo. Channel
    `03` sets the tempo from hex and channel `08` from the `BPMxx` table.
    Channel `01` fixes the background music's start, and every other channel
    becomes a timed note `(ms, channel, wav)`;
  - a final tuple sort of the notes.
- **The playback bookkeeping of `Player.play`.** This part has:
  - the scan that triggers every due note;
  - the choke groups, where a closed or pedal hi-hat stops an open one;
  - the per-channel polyphony limit, with the oldest instance stolen;
  - seeking, with the clamp, the new note index and the cleared tracking maps;
  - the keys the loop reacts to.

Modules, in dependency order:

- `Wrappers`: the `Option` type.
- `Text`: Python's `strip`, ASCII `upper`, `split(sep, 1)`, `split(";")[0]`, two-character chunks and string order.
- `Numbers`: Python's `int(s, base)` and `base36_to_int`.
- `Sorting`: a stable sort over a total preorder, as Python's `list.sort` is.
- `ChartLines`: the pure line reader. It turns a line into a command and applies the command to the definitions record.
- `Timing`: the bar-start table, global beats, the timing walk and the timeline, as functions.
- `DtxParse`: the class `Dtx`. Its methods fill its fields line by line and run the loops of the second pass. Each one is proved against `ChartLines` and `Timing`.
- `Playback`: the class `Player`, whose methods update the tracking maps in place. It is proved against the functions `Hit`, `HitActions`, `HitsFrom` and `ActionsFrom`.

Numbers are exact `real`s. Python's `float(text)` is the parameter
`toReal: string -> Option<real>`, where `None` is a `ValueError`.

A mixer channel is an opaque voice number. "Still sounding" (`get_busy()`)
is an input set of voices. The voice a `play()` call returns is an input,
and `None` means the mixer had none free. Fade-outs and plays come back as a
list of `Action`s, in the order the code issues them.

The source and the general description of the DTX format disagree in
places. The model follows the code:
- there are no forward-reference placeholders;
- there is no `RANDOM`/`IF` branching;
- a WAV is looked up when its note is triggered;
- the polyphony limit applies per channel, not per sound;
- a data string of odd length gives a one-character final code.

## Model

| member | source | states |
|---|---|---|
| Numbers.Base36ToInt | playground/dtx_player.py:8-13 | the value of `int(s, 36)` when Python accepts `s`, and 0 on any failure |
| Numbers.Base36RoundTrip | playground/dtx_player.py:8-13 | every natural number written in base 36 reads back as itself |
| Numbers.ParseInt | playground/dtx_player.py:165 | an empty string is no number (Python raises `ValueError`) |
| Numbers.ParsePlainDigits | playground/dtx_player.py:165-172 | a string of plain digits in the base parses to the value of its digits |
| Numbers.SignedDigits | playground/dtx_player.py:165 | a `-` or `+` sign before plain digits gives their value negated or as it is |
| Numbers.ParseHexPrefix | playground/dtx_player.py:268 | with base 16, `0x` before plain hexadecimal digits is skipped and the digits give the value |
| Text.Strip | playground/dtx_player.py:133 | the stripped line neither starts nor ends with whitespace |
| Text.StripSlice | playground/dtx_player.py:133 | the stripped text is the slice of the input left once the leading and the trailing whitespace is dropped: every character before and after the slice is whitespace |
| Text.Upper | playground/dtx_player.py:139 | the key keeps its length, maps each letter to upper case and keeps no lower-case letter |
| Text.SplitOnce | playground/dtx_player.py:77-81 | the two halves joined by the separator give back the line, and the key holds no separator |
| Text.BeforeFirst | playground/dtx_player.py:140 | the value before its first `;` is a prefix of the text holding no `;`, and ends at a `;` or at the end |
| Text.PairsJoin | playground/dtx_player.py:194 | the two-character codes joined again give back the data string |
| Text.Pairs | playground/dtx_player.py:194 | there are half as many codes as characters, rounded up; each has one or two characters; an odd-length string ends with a one-character code |
| Text.StrLeTotal | playground/dtx_player.py:281 | Python's string order is total |
| Text.StrLeTransitive | playground/dtx_player.py:281 | Python's string order is transitive |
| Text.StrLeAntisymmetric | playground/dtx_player.py:281 | Python's string order is antisymmetric |
| Sorting.SortBySorted | playground/dtx_player.py:245 | sorting by a total preorder gives a sorted list |
| Sorting.SortBy | playground/dtx_player.py:245 | sorting keeps exactly the same elements, as a permutation |
| Sorting.SortByStable | playground/dtx_player.py:245 | elements with equal keys keep their relative order, as in Python's stable sort |
| Sorting.SortByFirstIsLeast | playground/dtx_player.py:740-742 | the first element after the sort is one of the list's elements, with a key no greater than any other |
| ChartLines.SplitLine | playground/dtx_player.py:70-84 | with a `:`, key + ":" + value is the line and the key holds no `:`; else with a space, the same for the space; else the key is the line and the value is empty |
| ChartLines.NonNoteChannelTable | playground/dtx_player.py:25-37 | the non-note test holds exactly for the 23 visual, 4 system and 32 sound-effect channels of `NON_NOTE_CHANNELS` |
| ChartLines.Tokenize | playground/dtx_player.py:133-140 | a line is read exactly when, stripped, it starts with `#`; the key is then the stripped first half of the split, upper-cased, and the value is the stripped second half cut at its first `;` and stripped again, so it holds no `;` and no outer whitespace |
| ChartLines.TokenizeColonLine | playground/dtx_player.py:133-140 | a line `#key: value ;comment` reads back as the upper-cased key and the value, whatever the comment |
| ChartLines.TokenizeSpaceLine | playground/dtx_player.py:133-140 | a line `#key value` without a `:` reads back as the upper-cased key and the value |
| ChartLines.TokenizeComment | playground/dtx_player.py:133-135 | a line that, stripped, is empty or does not start with `#` is no command |
| ChartLines.BarOf | playground/dtx_player.py:172 | the bar of a data key is `int(key[0:3])` |
| ChartLines.DataKeyExamples | playground/dtx_player.py:171 | `00111`, `0021A` and `99908` are channel-data keys; `WAV01`, a key of four or six characters, a leading letter, a lower-case channel and a non-digit bar are not |
| ChartLines.DataKeyUnnamed | playground/dtx_player.py:142-171 | a channel-data key matches none of the named commands before it, so it always reaches the data branch |
| ChartLines.Dispatch | playground/dtx_player.py:142-209 | a data key on channel `02` is a bar length or nothing, a data key on a non-note channel is nothing, any other data key with a value is note data with its bar, channel and codes; a WAV definition keeps the key's id and has no `\` |
| ChartLines.DispatchMetadata | playground/dtx_player.py:142-156 | `TITLE` and `ARTIST` set the title and artist to the value, even an empty one; `BPM` and `BGMWAV` with a value set the tempo text and the music's WAV ID |
| ChartLines.DispatchWav | playground/dtx_player.py:151-154 | `WAVxx` with a value defines WAV `xx` as the value with every `\` turned into `/` |
| ChartLines.DispatchBpmTable | playground/dtx_player.py:157-161 | `BPMxx` with a value defines tempo `xx` by its text |
| ChartLines.DispatchVolume | playground/dtx_player.py:162-169 | `VOLUMExx` with a value sets the volume of WAV `xx` to the value read by `int()`, or to no number when it does not read |
| ChartLines.DispatchIgnored | playground/dtx_player.py:142-171 | an empty value asks nothing for any key but `TITLE` and `ARTIST`, the bare key `VOLUME` asks nothing whatever its value, and a key that none of the tests names asks nothing |
| ChartLines.DispatchData | playground/dtx_player.py:171-209 | a data line is a bar length exactly when its channel is `02` and it has a value, and channel data exactly when its channel is neither `02` nor a non-note channel and it has a value, carrying the bar, channel and data |
| ChartLines.ReadLine | playground/dtx_player.py:132-209 | a line that is not a command asks nothing, and a command line asks exactly what dispatching its tokenized key and value gives; every command is well formed |
| ChartLines.ReadLines | playground/dtx_player.py:132-137 | each line is read into its own command, in order |
| ChartLines.Apply | playground/dtx_player.py:142-185 | each command changes only its own field: title, artist, the tempo or a table entry, where a number that does not parse changes nothing; a data line or a skipped line changes nothing |
| ChartLines.CodeEventsShape | playground/dtx_player.py:199-209 | every event is a non-`00` code at its position, with the bar, the channel and the number of codes |
| ChartLines.CodeEventsOrdered | playground/dtx_player.py:199-209 | a line's events come in strictly increasing position |
| ChartLines.CodeEventsComplete | playground/dtx_player.py:199-209 | every non-`00` code of a line yields an event at its position |
| ChartLines.ChipEventsSpec | playground/dtx_player.py:191-209 | a channel-data line yields exactly one event per non-`00` two-character code, with position i, total the code count, and the bar, channel and code; 0 ≤ pos < total; an empty value yields none |
| ChartLines.AllEventsWellFormed | playground/dtx_player.py:171-209 | every raw event of a chart has a two-character channel outside `02` and the non-note channels, a non-`00` code and 0 ≤ pos < total |
| ChartLines.NoOpInert | playground/dtx_player.py:134-135 | a skipped line (no `#`, a non-note channel, an empty value) leaves the definitions as they were |
| ChartLines.NoOpNoEvents | playground/dtx_player.py:185-192 | a skipped line yields no raw event |
| ChartLines.BarLengthLastWriter | playground/dtx_player.py:176-180 | a bar's length is the value of the last parsable channel-`02` line for that bar; a later line whose value `float()` rejects leaves it as it was |
| Timing.BarStartUniform | playground/dtx_player.py:225-229 | without bar-length changes, bar b starts at beat 4b |
| Timing.BarStartIncreasing | playground/dtx_player.py:225-229 | with positive multipliers, bar starts strictly increase |
| Timing.BarStart | playground/dtx_player.py:225-229 | with positive multipliers no bar starts before beat 0, and every bar after bar 0 starts at a positive beat |
| Timing.BarStartNext | playground/dtx_player.py:225-229 | bar 0 starts at beat 0, and bar b + 1 starts four beats times bar b's multiplier after bar b |
| Timing.GlobalBeatInBar | playground/dtx_player.py:232-242 | with positive multipliers, an event's global beat lies in [start of its bar, start of the next bar) |
| Timing.GlobalBeat | playground/dtx_player.py:232-242 | an event at position 0 is at its bar's start, and with positive multipliers no event comes before its bar's start |
| Timing.GlobalBeatMonotone | playground/dtx_player.py:232-242 | within one line, a later position has a strictly later beat |
| Timing.EarlierBarEarlierBeat | playground/dtx_player.py:232-242 | every event of an earlier bar has a strictly earlier beat |
| Timing.Annotate | playground/dtx_player.py:232-242 | every raw event is kept, in order, with its global beat as `GlobalBeat` computes it |
| Timing.BeatLePreorder | playground/dtx_player.py:245 | ordering by global beat is a total preorder |
| Timing.NoteLePreorder | playground/dtx_player.py:281 | Python's tuple order on `(ms, channel, wav)` is a total preorder |
| Timing.Step | playground/dtx_player.py:252-279 | a zero tempo halts the walk; a running step records the event's beat; a `03` event sets the tempo to its hexadecimal value when it reads as one, an `08` event to its `#BPMxx` entry when there is one, and no other event changes it; only the first `01` event sets the music start; a note channel appends its note at the event's time |
| Timing.TempoStep | playground/dtx_player.py:252-273 | after an event that sets the tempo to n, the next event comes (its beat − this beat) × 60/n seconds later |
| Timing.TempoChangeApplies | playground/dtx_player.py:247-279 | in a walk, the event after a `03` or `08` event that sets the tempo to n ≠ 0 is timed at 60/n seconds per beat from it |
| Timing.HaltedStays | playground/dtx_player.py:255 | once the division by a zero tempo stops the walk, nothing further changes |
| Timing.Causality | playground/dtx_player.py:247-279 | an event's time depends only on the events before it and its own beat, so a tempo change affects only later intervals |
| Timing.ConstantTempo | playground/dtx_player.py:247-279 | with no `03` or `08` event at tempo b, an event's time is beat × 60/b seconds |
| Timing.ExampleHalfSecond | playground/dtx_player.py:232-256 | at 120 BPM, position 4 of 16 in bar 0 plays at 500 ms |
| Timing.StepForward | playground/dtx_player.py:252-279 | a step at a positive tempo to a later beat keeps time and notes in order |
| Timing.TimesNonDecreasing | playground/dtx_player.py:245-279 | with positive tempos and beats in order, event times never decrease |
| Timing.WalkNoteAt | playground/dtx_player.py:274-275 | each note-channel event adds its note, at its time, at its own place among the notes |
| Timing.WalkRouting | playground/dtx_player.py:261-275 | the walk's notes are one per note-channel event, none of them on `01`, `03` or `08` |
| Timing.BgmStart | playground/dtx_player.py:261-264 | the music start is the time of the first `01` event, or unset without one |
| Timing.TimelineSpec | playground/dtx_player.py:245-281 | the timeline's notes are the walk's notes sorted as tuples, in time order, one per note-channel event, none on `01`, `03` or `08`; the music start is the first `01` event's time, or 0 |
| DtxParse.ChartEvents | playground/dtx_player.py:171-209 | every raw event a chart yields is well formed |
| DtxParse.DefaultBgm | playground/dtx_player.py:211-213 | only the music's WAV ID can change, and only to `01` when `01` is defined and no non-empty `#BGMWAV` was given; a non-empty one is kept |
| DtxParse.DefaultBgmIdempotent | playground/dtx_player.py:211-213 | defaulting the music a second time changes nothing |
| DtxParse.CollectChipEvents | playground/dtx_player.py:194-209 | the event loop of one data line gives the line's events |
| DtxParse.MaxBar | playground/dtx_player.py:221-223 | the largest bar of any raw event, or 0 without events |
| DtxParse.BarStartTable | playground/dtx_player.py:225-229 | the table holds bars 0 to max+1, each at its bar start |
| DtxParse.AnnotateBeats | playground/dtx_player.py:232-242 | the loop gives every event its global beat |
| DtxParse.EventStep | playground/dtx_player.py:253-279 | one event at a nonzero tempo: its time, the new tempo, whether it starts the music and the note it adds are the walk's step |
| DtxParse.Dtx.constructor | playground/dtx_player.py:54-68 | title "Untitled", artist "Unknown", 120 BPM, empty tables, no notes, music start 0 |
| DtxParse.Dtx.Perform | playground/dtx_player.py:142-185 | one command updates the fields as applying it to the definitions does |
| DtxParse.Dtx.ReadChart | playground/dtx_player.py:132-209 | the first pass leaves the definitions of all lines in order and returns all raw events |
| DtxParse.Dtx.Walk | playground/dtx_player.py:247-279 | the walk loop appends the walk's notes and sets the music start, and stops where a zero tempo is met |
| DtxParse.Dtx.Schedule | playground/dtx_player.py:221-281 | the second pass: the notes are the walk's notes sorted as tuples, or the partial notes when a zero tempo stops the walk |
| DtxParse.Dtx.DefaultBgmWav | playground/dtx_player.py:212-213 | without a `#BGMWAV` value, WAV `01` becomes the music when it is defined; every other definition is kept |
| DtxParse.Dtx.Parse | playground/dtx_player.py:132-281 | parsing leaves the chart's definitions, with WAV `01` as the default music, and its notes and music start |
| DtxParse.Load | playground/dtx_player.py:853-854 | a fresh chart object holds the chart's definitions, and its notes and music start are the chart's timeline exactly when it has one |
| Playback.Action.Volume | playground/dtx_player.py:748-754 | the note's volume is the SE volume scaled by the WAV percentage, within [0, SE volume] for a percentage within [0, 100] |
| Playback.Chokeable | playground/dtx_player.py:376-382 | the chokeable channels are those some choker stops: the open hi-hat `18` |
| Playback.ChokersNotChokeable | playground/dtx_player.py:356-382 | no choker channel can itself be choked |
| Playback.Live | playground/dtx_player.py:733-735 | the clean-up keeps exactly the instances whose voice is still sounding |
| Playback.EvictOldest | playground/dtx_player.py:737-744 | stealing happens exactly at the limit, and takes a sounding instance with the earliest start time |
| Playback.SurvivorsAccount | playground/dtx_player.py:737-744 | stealing removes the evicted instance and nothing else |
| Playback.KeptContents | playground/dtx_player.py:733-770 | after a trigger, the channel tracks the sounding instances less the stolen one, plus the new instance when `play()` gave a voice |
| Playback.PolyphonyBound | playground/dtx_player.py:737-770 | a channel within the limit stays within it after a trigger |
| Playback.ChokeExact | playground/dtx_player.py:712-721 | a choker removes exactly its choked channels from the choke map, and every other entry keeps its key and its voice |
| Playback.HitPoly | playground/dtx_player.py:707-768 | a note whose WAV is not loaded changes nothing; a loaded one replaces only its own channel's instance list, by the `Kept` list, and every other channel keeps its list |
| Playback.HitBounded | playground/dtx_player.py:707-770 | a trigger keeps every channel within the limit and records only chokeable channels |
| Playback.HitsFromBounded | playground/dtx_player.py:702-776 | a whole scan keeps the tracking maps bounded |
| Playback.ChokeFadesShape | playground/dtx_player.py:712-721 | each fade-out of the choke loop stops a sounding voice the choke map holds for one of the choked channels, at most one per choked channel |
| Playback.HitActionsShape | playground/dtx_player.py:706-755 | a note whose WAV is not loaded asks for nothing; a loaded one asks for its play at the SE volume and WAV percentage last, and before it only fade-outs of sounding voices that the choke map holds for its choked channels or that its channel tracks, at most one per choked channel plus one |
| Playback.Steal | playground/dtx_player.py:733-744 | the clean-up and stealing leave the survivors and the stolen fade-out, and a channel within the limit is then below it |
| Playback.SongCoversNotes | playground/dtx_player.py:578-580 | with the notes in time order, every note is at least 3 s before the song's end |
| Playback.SongDuration | playground/dtx_player.py:578-580 | without notes the song has length 0; with a last note not before 0 it lasts at least 3 s, so the seek clamp has an upper bound |
| Playback.Clamp | playground/dtx_player.py:648-651 | the target is never negative and never after a positive song length; a negative target lands at 0, a target past a positive song length lands at that length, and any other target is kept |
| Playback.Max0 | playground/dtx_player.py:665 | `max(0, x)` is the larger of 0 and x |
| Playback.FirstAtOrAfter | playground/dtx_player.py:671-678 | the first index whose note is at or after the target, or the note count when there is none |
| Playback.VolumeUp | playground/dtx_player.py:619-628 | one step up is a tenth more, or exactly 1 once a tenth more would reach 1; never above 1, and never below a volume that was at most 1 |
| Playback.VolumeDown | playground/dtx_player.py:623-630 | one step down is a tenth less, or exactly 0 once a tenth less would reach 0; never below 0, and never above a volume that was at least 0 |
| Playback.VolumeStepsInRange | playground/dtx_player.py:616-630 | a volume in [0, 1] stays in it under any sequence of volume keys |
| Playback.SeekTarget | playground/dtx_player.py:640-647 | only the arrow keys seek: Right to the current time plus 5000 ms, Left to the current time minus 5000 ms |
| Playback.SentinelSwallowsSeek | playground/dtx_player.py:640-647 | Left at 4999 ms is not a seek in the code as written, where the intended seek lands at 0 |
| Playback.SeekTargetsAgree | playground/dtx_player.py:640-647 | the code as written and the intended seek differ exactly when the computed target is -1 ms |
| Playback.SeekTargetAsWritten | playground/dtx_player.py:640-647 | only the arrow keys seek, never to -1 ms, and an arrow seeks by 5000 ms whenever the target is not exactly -1 ms |
| Playback.Player.constructor | playground/dtx_player.py:566-580 | playback starts at note 0 with empty tracking maps, the offset at the music start and the padded song length, with the volumes `__init__` sets (SE 1, BGM 0.7) |
| Playback.Player.ChokeFor | playground/dtx_player.py:712-721 | the choke loop fades each choked voice still sounding and drops every choked channel from the choke map |
| Playback.Player.Record | playground/dtx_player.py:756-768 | the channel then tracks the survivors plus the new instance when `play()` gave a voice, and only a chokeable channel with a new voice is recorded for choking |
| Playback.Player.Trigger | playground/dtx_player.py:706-775 | one due note updates the tracking maps and asks for the actions as `Hit` and `HitActions` say |
| Playback.Player.AdvanceDue | playground/dtx_player.py:702-776 | the scan triggers exactly the due notes from the current index in order, stops at the first later note and keeps the maps bounded |
| Playback.Player.Seek | playground/dtx_player.py:647-683 | a seek clamps the target, restarts the music there when it drives the clock, moves the index to the first note at or after the target and empties both maps |
| Playback.Player.PressKey | playground/dtx_player.py:609-683 | Escape stops the loop, the volume keys step their volume, the arrows seek to the clamped target with the music restarted at `max(0, (target - music start) / 1000)` seconds when the music drives the clock, and any other key changes nothing |

## Left out

- Reading the file and guessing its encoding (playground/dtx_player.py:98-130) are I/O; the model starts from decoded lines.
- `float(text)` and IEEE arithmetic: numbers are exact reals and the text-to-number reading is the parameter `toReal`; no bit-level float result is claimed.
- `str.upper()` and the `\d` of the data-key pattern are modelled on ASCII: other Unicode letters are not upper-cased and other Unicode digits do not make a data key. `str.strip()` uses Python's full whitespace set.
- Numbers.ParseInt: `int()` also reads non-ASCII decimal digits (Arabic-Indic, full-width and the like); the model reads only `0`-`9` and `a`-`z` in either case, so such a string is no number here. Its own contract states only that the empty string fails; what it reads is stated by `ParsePlainDigits`, `SignedDigits`, `ParseHexPrefix` and `Base36RoundTrip`. It also reads a decimal string of any length, where CPython 3.11 and later (and the patched 3.7-3.10 releases) by default raise `ValueError` for more than 4300 digits; for such a `#VOLUMExx` value the code ignores the line, while the model records the number.
- `os.path.join` and the chart's directory: a WAV entry keeps its path with `\` turned into `/`, not joined with the directory.
- The `print` warnings on unparsable numbers: the model keeps only their effect, which is that nothing changes.
- The division by a zero tempo raises `ZeroDivisionError` and ends the program; the model stops the walk at that event and reports it, with the notes gathered so far.
- Timing.Hex: `int(value, 16)` is a parameter of the walk (`Timing.Hex` is passed in), so the walk's lemmas hold for any reader of hex values.
- All pygame audio: loading sounds, `play`, `fadeout`, `get_busy`, `set_volume`, `pygame.mixer.stop()` and the music stream. Voices are numbers, "sounding" is an input set and the mixer's requests are returned as actions.
- Playback.Player.AdvanceDue: the set of sounding voices is fixed for one scan, and the voice each `play()` returns is the input `voiceFor`; the mixer's own allocation is not modelled.
- Playback.Player.Seek: `start_ticks` (the system clock's reference) and the music fade are not state of the model; the music restart position is returned as `musicStartS`.
- Playback.Player.PressKey: the current time is an input, and the BGM volume is reported even when no music is loaded, where the code skips `set_volume`.
- Playback.Player.PressKey: an arrow press seeks through the corrected `SeekTarget`, so a Left press at exactly 4999 ms seeks to 0; the code as written drops that press (`SeekTargetAsWritten`, see Findings).
- The real-time clock, the event loop around the keys, the end-of-playback check and the BGM finishing: the clock is an input.
- Rendering, fonts, lanes, hit animations and the progress bar are UI.
- `Player.load_sounds` and `main`: only the set of loaded WAV IDs is kept, as `Player.sounds`.
- `playground/midi-connect.py` enumerates MIDI ports and reads a device; it has no logic to model.

## Findings

| source | as written | input that shows it | evidently intended | confidence | as-written member | corrected member |
|---|---|---|---|---|---|---|
| playground/dtx_player.py:640-647 | `-1` marks "no seek", so a computed target of exactly -1 ms is taken as no key press | Left pressed at 4999 ms: 4999 - 5000 = -1, so no seek happens | a Left press at 4999 ms seeks to 0 after the clamp | not executed; needs the clock to read exactly 4999 ms | Playback.SentinelSwallowsSeek | Playback.SeekTarget |

=== FILE: chartlines.dfy ===
/** The first pass of `Dtx.parse`: each `#` line of a DTX chart is split
    into an upper-cased key and a comment-free value, then dispatched to a
    metadata field, a resource table (`#WAVxx`, `#BPMxx`, `#VOLUMExx`,
    `#BGMWAV`) or, for a channel-data line `#MMMCC: ...`, cut into
    two-character codes that become raw events. Here a line is read into a
    `Command`, a command updates a `Defs` record, and a whole chart is the
    fold of its lines. Numbers written as `float(value)` in the chart are
    read by a caller-supplied `toReal`. */
module ChartLines {
  import opened Wrappers
  import Text
  import Numbers

  /** The channels that never become timed events: visual layers `04 07
      54 55-59 5A 60 C4 C7 D5-DF`, system channels `50 51 C1 C2` and the
      auto-played sound-effect channels `61-69 70-79 80-89 90-92`. */
  predicate NonNoteChannel(ch: string) {
    && |ch| == 2
    && var a, b := ch[0], ch[1];
       || (a == '0' && (b == '4' || b == '7'))
       || (a == '5' && (b == '0' || b == '1' || '4' <= b <= '9' || b == 'A'))
       || ('6' <= a <= '8' && '0' <= b <= '9')
       || (a == '9' && '0' <= b <= '2')
       || (a == 'C' && (b == '1' || b == '2' || b == '4' || b == '7'))
       || (a == 'D' && ('5' <= b <= '9' || 'A' <= b <= 'F'))
  }

  /** The non-note channels as the player lists them: visual layers and
      control, system channels, and the auto-played sound effects. */
  const VisualChannels: set<string> := {
    "04", "07", "54", "5A", "C4", "C7",
    "55", "56", "57", "58", "59", "60",
    "D5", "D6", "D7", "D8", "D9", "DA", "DB", "DC", "DD", "DE", "DF"
  }
  const SystemChannels: set<string> := {"50", "51", "C1", "C2"}
  const SoundEffectChannels: set<string> := {
    "61", "62", "63", "64", "65", "66", "67", "68", "69",
    "70", "71", "72", "73", "74", "75", "76", "77", "78", "79",
    "80", "81", "82", "83", "84", "85", "86", "87", "88", "89",
    "90", "91", "92"
  }
  const NonNoteTable: set<string> := VisualChannels + SystemChannels + SoundEffectChannels

  /** The ranges of `NonNoteChannel` are exactly the listed channels. */
  lemma NonNoteChannelTable(ch: string)
    ensures NonNoteChannel(ch) <==> ch in NonNoteTable
  {
    if NonNoteChannel(ch) {
      RangesListed(ch);
    }
    VisualListedNonNote(ch);
    SystemListedNonNote(ch);
    SoundEffectListedNonNote(ch);
  }

  /** Each listed group lies inside the ranges. */
  lemma VisualListedNonNote(ch: string)
    ensures ch in VisualChannels ==> NonNoteChannel(ch)
  {
  }

  lemma SystemListedNonNote(ch: string)
    ensures ch in SystemChannels ==> NonNoteChannel(ch)
  {
  }

  lemma SoundEffectListedNonNote(ch: string)
    ensures ch in SoundEffectChannels ==> NonNoteChannel(ch)
  {
  }

  /** Every channel in the ranges is listed. */
  lemma RangesListed(ch: string)
    requires NonNoteChannel(ch)
    ensures ch in VisualChannels || ch in SystemChannels || ch in SoundEffectChannels
  {
    var a, b := ch[0], ch[1];
    assert ch == [a, b];
    if a == '0' {
      Row0(b);
    } else if a == '5' {
      Row5(b);
    } else if a == '6' {
      Row6(b);
    } else if a == '7' {
      Row7(b);
    } else if a == '8' {
      Row8(b);
    } else if a == '9' {
      Row9(b);
    } else if a == 'C' {
      RowC(b);
    } else {
      RowD(b);
    }
  }

  /** One lemma per leading character: each second character its range
      allows gives a listed channel. */
  lemma Row0(b: char)
    requires b == '4' || b == '7'
    ensures ['0', b] in VisualChannels
  {
    if b == '4' { assert ['0', b] == "04"; }
    else { assert ['0', b] == "07"; }
  }

  lemma Row5(b: char)
    requires b == '0' || b == '1' || '4' <= b <= '9' || b == 'A'
    ensures ['5', b] in VisualChannels || ['5', b] in SystemChannels
  {
    if b == '0' { assert ['5', b] == "50"; }
    else if b == '1' { assert ['5', b] == "51"; }
    else if b == '4' { assert ['5', b] == "54"; }
    else if b == '5' { assert ['5', b] == "55"; }
    else if b == '6' { assert ['5', b] == "56"; }
    else if b == '7' { assert ['5', b] == "57"; }
    else if b == '8' { assert ['5', b] == "58"; }
    else if b == '9' { assert ['5', b] == "59"; }
    else { assert ['5', b] == "5A"; }
  }

  lemma Row6(b: char)
    requires '0' <= b <= '9'
    ensures ['6', b] in VisualChannels || ['6', b] in SoundEffectChannels
  {
    if b == '0' { assert ['6', b] == "60"; }
    else if b == '1' { assert ['6', b] == "61"; }
    else if b == '2' { assert ['6', b] == "62"; }
    else if b == '3' { assert ['6', b] == "63"; }
    else if b == '4' { assert ['6', b] == "64"; }
    else if b == '5' { assert ['6', b] == "65"; }
    else if b == '6' { assert ['6', b] == "66"; }
    else if b == '7' { assert ['6', b] == "67"; }
    else if b == '8' { assert ['6', b] == "68"; }
    else { assert ['6', b] == "69"; }
  }

  lemma Row7(b: char)
    requires '0' <= b <= '9'
    ensures ['7', b] in SoundEffectChannels
  {
    if b == '0' { assert ['7', b] == "70"; }
    else if b == '1' { assert ['7', b] == "71"; }
    else if b == '2' { assert ['7', b] == "72"; }
    else if b == '3' { assert ['7', b] == "73"; }
    else if b == '4' { assert ['7', b] == "74"; }
    else if b == '5' { assert ['7', b] == "75"; }
    else if b == '6' { assert ['7', b] == "76"; }
    else if b == '7' { assert ['7', b] == "77"; }
    else if b == '8' { assert ['7', b] == "78"; }
    else { assert ['7', b] == "79"; }
  }

  lemma Row8(b: char)
    requires '0' <= b <= '9'
    ensures ['8', b] in SoundEffectChannels
  {
    if b == '0' { assert ['8', b] == "80"; }
    else if b == '1' { assert ['8', b] == "81"; }
    else if b == '2' { assert ['8', b] == "82"; }
    else if b == '3' { assert ['8', b] == "83"; }
    else if b == '4' { assert ['8', b] == "84"; }
    else if b == '5' { assert ['8', b] == "85"; }
    else if b == '6' { assert ['8', b] == "86"; }
    else if b == '7' { assert ['8', b] == "87"; }
    else if b == '8' { assert ['8', b] == "88"; }
    else { assert ['8', b] == "89"; }
  }

  lemma Row9(b: char)
    requires '0' <= b <= '2'
    ensures ['9', b] in SoundEffectChannels
  {
    if b == '0' { assert ['9', b] == "90"; }
    else if b == '1' { assert ['9', b] == "91"; }
    else { assert ['9', b] == "92"; }
  }

  lemma RowC(b: char)
    requires b == '1' || b == '2' || b == '4' || b == '7'
    ensures ['C', b] in VisualChannels || ['C', b] in SystemChannels
  {
    if b == '1' { assert ['C', b] == "C1"; }
    else if b == '2' { assert ['C', b] == "C2"; }
    else if b == '4' { assert ['C', b] == "C4"; }
    else { assert ['C', b] == "C7"; }
  }

  lemma RowD(b: char)
    requires '5' <= b <= '9' || 'A' <= b <= 'F'
    ensures ['D', b] in VisualChannels
  {
    if b == '5' { assert ['D', b] == "D5"; }
    else if b == '6' { assert ['D', b] == "D6"; }
    else if b == '7' { assert ['D', b] == "D7"; }
    else if b == '8' { assert ['D', b] == "D8"; }
    else if b == '9' { assert ['D', b] == "D9"; }
    else if b == 'A' { assert ['D', b] == "DA"; }
    else if b == 'B' { assert ['D', b] == "DB"; }
    else if b == 'C' { assert ['D', b] == "DC"; }
    else if b == 'D' { assert ['D', b] == "DD"; }
    else if b == 'E' { assert ['D', b] == "DE"; }
    else { assert ['D', b] == "DF"; }
  }

  /** One non-`00` code of a channel-data line: slot `pos` of the `total`
      slots that divide bar `bar`. */
  datatype RawEvent = RawEvent(bar: nat, channel: string, pos: nat, total: nat, val: string)

  /** `_split_line`: split at the first `:`, else at the first space, else
      the whole line is the key and the value is empty. */
  function SplitLine(line: string): (r: (string, string))
    ensures ':' in line ==> r.0 + ":" + r.1 == line && ':' !in r.0
    ensures ':' !in line && ' ' in line ==> r.0 + " " + r.1 == line && ' ' !in r.0
    ensures ':' !in line && ' ' !in line ==> r.0 == line && r.1 == ""
  {
    if ':' in line then Text.SplitOnce(line, ':')
    else if ' ' in line then Text.SplitOnce(line, ' ')
    else (line, "")
  }

  /** The key and value of a command line, or `None` for a line that is
      blank or does not start with `#` once stripped. The key is stripped
      and upper-cased; the value is stripped, cut at its first `;` and
      stripped again. */
  function Tokenize(line: string): (r: Option<(string, string)>)
    ensures r.Some? <==> Text.Strip(line) != [] && Text.Strip(line)[0] == '#'
    ensures r.Some? ==> forall i :: 0 <= i < |r.value.0| ==> !('a' <= r.value.0[i] <= 'z')
    ensures r.Some? ==> ';' !in r.value.1
    ensures r.Some? && r.value.1 != [] ==>
      !Text.IsSpace(r.value.1[0]) && !Text.IsSpace(r.value.1[|r.value.1| - 1])
    ensures r.Some? ==>
      var (rawKey, rawValue) := SplitLine(Text.Strip(line)[1..]);
      r.value == (Text.Upper(Text.Strip(rawKey)), Text.Strip(Text.BeforeFirst(Text.Strip(rawValue), ';')))
  {
    var t := Text.Strip(line);
    if t == [] || t[0] != '#' then None
    else
      var (rawKey, rawValue) := SplitLine(t[1..]);
      var value := Text.Strip(Text.BeforeFirst(Text.Strip(rawValue), ';'));
      StripKeepsAbsent(Text.BeforeFirst(Text.Strip(rawValue), ';'), ';');
      Some((Text.Upper(Text.Strip(rawKey)), value))
  }

  /** A key as written in a chart: not empty, no `:`, no whitespace. */
  predicate PlainKey(key: string) {
    key != [] && ':' !in key && forall i :: 0 <= i < |key| ==> !Text.IsSpace(key[i])
  }

  /** A value as written in a chart: not empty, no `;`, and no whitespace
      at either end. */
  predicate PlainValue(value: string) {
    value != [] && ';' !in value && !Text.IsSpace(value[0]) && !Text.IsSpace(value[|value| - 1])
  }

  lemma PlainKeyStripped(key: string)
    requires PlainKey(key)
    ensures Text.Strip(key) == key
  {
    Text.StripFixed(key);
  }

  /** A `#` line that is already stripped is tokenized from its split. */
  lemma TokenizeStripped(line: string, rawKey: string, rawValue: string)
    requires line != [] && line[0] == '#' && Text.Strip(line) == line
    requires SplitLine(line[1..]) == (rawKey, rawValue)
    ensures Tokenize(line) == Some((Text.Upper(Text.Strip(rawKey)), Text.Strip(Text.BeforeFirst(Text.Strip(rawValue), ';'))))
  {
  }

  /** `_split_line` of `key: rest` and of `key value`. */
  lemma SplitAtColon(key: string, rest: string)
    requires PlainKey(key)
    ensures SplitLine(key + ":" + rest) == (key, rest)
  {
    var t := key + ":" + rest;
    assert t[|key|] == ':' && t[..|key|] == key && t[|key| + 1..] == rest;
    Text.SplitOnceAt(t, ':', |key|);
  }

  lemma SplitAtSpace(key: string, value: string)
    requires PlainKey(key) && ':' !in value
    ensures SplitLine(key + " " + value) == (key, value)
  {
    var t := key + " " + value;
    assert ':' !in t;
    assert t[|key|] == ' ' && t[..|key|] == key && t[|key| + 1..] == value;
    Text.SplitOnceAt(t, ' ', |key|);
  }

  /** The value a line `#key: value ;comment` gives, once stripped and
      cut at the comment. */
  lemma CleanCommentedValue(rest: string, value: string, comment: string)
    requires PlainValue(value)
    requires comment == [] || !Text.IsSpace(comment[|comment| - 1])
    requires rest == " " + value + " ;" + comment
    ensures Text.Strip(Text.BeforeFirst(Text.Strip(rest), ';')) == value
  {
    var body := value + " ;" + comment;
    StripPadding(rest, body);
    CommentCut(body, value, comment);
    SpaceBeforeComment(value + " ", value);
  }

  /** Stripping `" " + body` gives `body` when `body` has no outer space. */
  lemma StripPadding(rest: string, body: string)
    requires body != [] && !Text.IsSpace(body[0]) && !Text.IsSpace(body[|body| - 1])
    requires rest == " " + body
    ensures Text.Strip(rest) == body
  {
    Text.StripLeading(rest);
    assert rest[1..] == body;
    Text.StripFixed(body);
  }

  /** The text before the comment mark is the value and the space before it. */
  lemma CommentCut(body: string, value: string, comment: string)
    requires ';' !in value
    requires body == value + " ;" + comment
    ensures Text.BeforeFirst(body, ';') == value + " "
  {
    assert body[..|value| + 1] == value + " " && body[|value| + 1] == ';';
    Text.BeforeFirstAt(body, ';', |value| + 1);
  }

  /** Stripping drops the space between the value and its comment. */
  lemma SpaceBeforeComment(head: string, value: string)
    requires PlainValue(value)
    requires head == value + " "
    ensures Text.Strip(head) == value
  {
    Text.StripTrailing(head);
    assert head[..|value|] == value;
    Text.StripFixed(value);
  }

  /** A line `#key: value ;comment` reads back as the upper-cased key and
      the value, whatever the comment. */
  lemma TokenizeColonLine(line: string, key: string, value: string, comment: string)
    requires PlainKey(key) && PlainValue(value)
    requires comment == [] || !Text.IsSpace(comment[|comment| - 1])
    requires line == "#" + key + ": " + value + " ;" + comment
    ensures Tokenize(line) == Some((Text.Upper(key), value))
  {
    var rest := " " + value + " ;" + comment;
    ColonLineParts(line, key, rest);
    CleanCommentedValue(rest, value, comment);
    PlainKeyStripped(key);
    TokenizeStripped(line, key, rest);
  }

  /** The stripped line and the split of `#key:rest`. */
  lemma ColonLineParts(line: string, key: string, rest: string)
    requires PlainKey(key) && rest != [] && !Text.IsSpace(rest[|rest| - 1])
    requires line == "#" + key + ":" + rest
    ensures line != [] && line[0] == '#' && Text.Strip(line) == line
    ensures SplitLine(line[1..]) == (key, rest)
  {
    assert line[1..] == key + ":" + rest;
    SplitAtColon(key, rest);
    assert line[|line| - 1] == rest[|rest| - 1];
    Text.StripFixed(line);
  }

  /** A line `#key value` without a `:` is split at its first space: it
      reads back as the upper-cased key and the value. */
  lemma TokenizeSpaceLine(line: string, key: string, value: string)
    requires PlainKey(key) && PlainValue(value) && ':' !in value
    requires line == "#" + key + " " + value
    ensures Tokenize(line) == Some((Text.Upper(key), value))
  {
    SpaceLineParts(line, key, value);
    CleanPlainValue(value);
    PlainKeyStripped(key);
    TokenizeStripped(line, key, value);
  }

  /** The stripped line and the split of `#key value`. */
  lemma SpaceLineParts(line: string, key: string, value: string)
    requires PlainKey(key) && PlainValue(value) && ':' !in value
    requires line == "#" + key + " " + value
    ensures line != [] && line[0] == '#' && Text.Strip(line) == line
    ensures SplitLine(line[1..]) == (key, value)
  {
    assert line[1..] == key + " " + value;
    SplitAtSpace(key, value);
    assert line[|line| - 1] == value[|value| - 1];
    Text.StripFixed(line);
  }

  /** A value without a comment comes back unchanged. */
  lemma CleanPlainValue(value: string)
    requires PlainValue(value)
    ensures Text.Strip(Text.BeforeFirst(Text.Strip(value), ';')) == value
  {
    Text.StripFixed(value);
    Text.BeforeFirstAt(value, ';', |value|);
    assert value[..|value|] == value;
  }

  /** A line that does not start with `#` is no command. */
  lemma TokenizeComment(line: string)
    requires Text.Strip(line) == [] || Text.Strip(line)[0] != '#'
    ensures Tokenize(line).None?
  {
  }

  /** Stripping never brings in a character that was not there. */
  lemma StripKeepsAbsent(s: string, c: char)
    requires c !in s
    ensures c !in Text.Strip(s)
  {
    var i := Text.StripSlice(s, Text.IsSpace);
  }

  /** A channel-data key `MMMCC`: three decimal digits (the bar) and two
      characters from `0`-`9`, `A`-`Z` (the channel). */
  predicate IsDataKey(key: string) {
    && |key| == 5
    && (forall i :: 0 <= i < 3 ==> '0' <= key[i] <= '9')
    && (forall i :: 3 <= i < 5 ==> '0' <= key[i] <= '9' || 'A' <= key[i] <= 'Z')
  }

  /** Keys the pattern `^\d{3}[0-9A-Z]{2}$` takes and keys it refuses. */
  lemma DataKeyExamples()
    ensures IsDataKey("00111") && IsDataKey("0021A") && IsDataKey("99908")
    ensures !IsDataKey("WAV01") && !IsDataKey("0011") && !IsDataKey("001111")
    ensures !IsDataKey("A0111") && !IsDataKey("001a1") && !IsDataKey("00-11")
  {
    assert "WAV01"[0] == 'W';
    assert "A0111"[0] == 'A';
    assert "001a1"[3] == 'a';
    assert "00-11"[2] == '-';
  }

  /** What one chart line asks for. Decimal numbers (tempos, bar lengths)
      are kept as the chart's text until the line is applied; a volume is
      read as a base-10 integer, `None` when it is not one. */
  datatype Command =
    | NoOp
    | SetTitle(title: string)
    | SetArtist(artist: string)
    | SetBpm(text: string)
    | DefineWav(id: string, path: string)
    | SetBgmWav(id: string)
    | DefineBpm(id: string, text: string)
    | DefineVolume(id: string, volume: Option<int>)
    | SetBarLength(bar: nat, text: string)
    | ChannelData(bar: nat, channel: string, data: string)

  /** Python's `s.startswith(p)`. */
  predicate StartsWith(s: string, p: string) {
    |p| <= |s| && s[..|p|] == p
  }

  /** The bar number `int(key[0:3])` of a channel-data key. */
  function BarOf(key: string): (bar: nat)
    requires IsDataKey(key)
    ensures Numbers.ParseInt(key[..3], 10) == Some(bar)
  {
    var digits := key[..3];
    assert Numbers.PlainDigits(digits, 10) by {
      assert forall i :: 0 <= i < 3 ==> digits[i] == key[i];
    }
    Numbers.ParsePlainDigits(digits, 10);
    Numbers.DigitsValue(digits, 10)
  }

  /** A channel-data key starts with a digit, so none of the named keys
      before it in the dispatch can take it. */
  lemma DataKeyUnnamed(key: string)
    requires IsDataKey(key)
    ensures key != "TITLE" && key != "ARTIST" && key != "BPM" && key != "BGMWAV"
    ensures !StartsWith(key, "WAV") && !StartsWith(key, "BPM") && !StartsWith(key, "VOLUME")
  {
    assert '0' <= key[0] <= '9';
  }

  /** The dispatch of the line loop, in its order: the first test that
      matches decides. */
  function Dispatch(key: string, value: string): (c: Command)
    ensures c.ChannelData? ==>
      && IsDataKey(key) && |c.channel| == 2 && c.bar == BarOf(key) && c.channel == key[3..]
      && c.channel != "02" && !NonNoteChannel(c.channel)
      && c.data == value && value != []
    ensures c.SetBarLength? ==>
      IsDataKey(key) && key[3..] == "02" && c.bar == BarOf(key) && c.text == value && value != []
    ensures IsDataKey(key) && key[3..] == "02" ==> c.SetBarLength? || (c.NoOp? && value == [])
    ensures IsDataKey(key) && NonNoteChannel(key[3..]) ==> c.NoOp?
    ensures IsDataKey(key) && key[3..] != "02" && !NonNoteChannel(key[3..]) && value != [] ==>
      c.ChannelData?
    ensures c.DefineWav? ==> StartsWith(key, "WAV") && c.id == key[3..] && '\\' !in c.path
  {
    if IsDataKey(key) then DataKeyUnnamed(key); DispatchData(key, value)
    else if key == "TITLE" then SetTitle(value)
    else if key == "ARTIST" then SetArtist(value)
    else if key == "BPM" && value != [] then SetBpm(value)
    else if StartsWith(key, "WAV") && value != [] then DefineWav(key[3..], Text.Replace(value, '\\', '/'))
    else if key == "BGMWAV" && value != [] then SetBgmWav(value)
    else if StartsWith(key, "BPM") && |key| > 3 && value != [] then DefineBpm(key[3..], value)
    else if StartsWith(key, "VOLUME") && |key| > 6 && value != [] then DefineVolume(key[6..], Numbers.ParseInt(value, 10))
    else NoOp
  }

  /** A key that starts with something other than a digit is no channel
      data. */
  lemma LetterKeyNotData(key: string)
    requires key != [] && !('0' <= key[0] <= '9')
    ensures !IsDataKey(key)
  {
  }

  /** The metadata keys: `TITLE` and `ARTIST` take any value, `BPM` and
      `BGMWAV` only a non-empty one. */
  lemma DispatchMetadata(key: string, value: string)
    ensures key == "TITLE" ==> Dispatch(key, value) == SetTitle(value)
    ensures key == "ARTIST" ==> Dispatch(key, value) == SetArtist(value)
    ensures key == "BPM" && value != [] ==> Dispatch(key, value) == SetBpm(value)
    ensures key == "BGMWAV" && value != [] ==> Dispatch(key, value) == SetBgmWav(value)
  {
    if key == "TITLE" || key == "ARTIST" || key == "BPM" || key == "BGMWAV" {
      LetterKeyNotData(key);
      assert !StartsWith(key, "WAV") by { assert key[0] != 'W'; }
    }
  }

  /** A `#WAVxx` line with a value defines WAV `xx` as the value with
      `\\` turned into `/`. */
  lemma DispatchWav(key: string, value: string)
    requires StartsWith(key, "WAV") && value != []
    ensures Dispatch(key, value) == DefineWav(key[3..], Text.Replace(value, '\\', '/'))
  {
    assert key[0] == 'W';
    LetterKeyNotData(key);
  }

  /** A `#BPMxx` line with a value defines tempo `xx` by its text. */
  lemma DispatchBpmTable(key: string, value: string)
    requires StartsWith(key, "BPM") && |key| > 3 && value != []
    ensures Dispatch(key, value) == DefineBpm(key[3..], value)
  {
    assert key[0] == 'B' && key[1] == 'P';
    LetterKeyNotData(key);
    assert key != "BPM" && key != "BGMWAV" && !StartsWith(key, "WAV");
  }

  /** A `#VOLUMExx` line with a value sets the volume of WAV `xx` to the
      value read as a base-10 integer, `None` when it is not one. */
  lemma DispatchVolume(key: string, value: string)
    requires StartsWith(key, "VOLUME") && |key| > 6 && value != []
    ensures Dispatch(key, value) == DefineVolume(key[6..], Numbers.ParseInt(value, 10))
  {
    assert key[0] == 'V';
    LetterKeyNotData(key);
    assert key != "TITLE" && key != "ARTIST" && key != "BPM" && key != "BGMWAV";
    assert !StartsWith(key, "WAV") && !StartsWith(key, "BPM");
  }

  /** What the dispatch ignores: an empty value for any key but `TITLE`
      and `ARTIST`, the bare key `VOLUME`, which names no WAV, and a key
      that none of its tests names. */
  lemma DispatchIgnored(key: string, value: string)
    ensures value == [] && key != "TITLE" && key != "ARTIST" ==> Dispatch(key, value).NoOp?
    ensures key == "VOLUME" ==> Dispatch(key, value).NoOp?
    ensures (!IsDataKey(key) && key != "TITLE" && key != "ARTIST" && key != "BGMWAV"
             && !StartsWith(key, "WAV") && !StartsWith(key, "BPM") && !StartsWith(key, "VOLUME"))
            ==> Dispatch(key, value).NoOp?
  {
  }

  /** The dispatch of a channel-data line: `02` sets a bar length, a
      non-note channel or an empty value does nothing, anything else is
      note data. */
  function DispatchData(key: string, value: string): (c: Command)
    requires IsDataKey(key)
    ensures c.SetBarLength? || c.ChannelData? || c.NoOp?
    ensures c.SetBarLength? <==> key[3..] == "02" && value != []
    ensures c.ChannelData? <==> key[3..] != "02" && !NonNoteChannel(key[3..]) && value != []
    ensures c.SetBarLength? ==> c.bar == BarOf(key) && c.text == value
    ensures c.ChannelData? ==> c.bar == BarOf(key) && c.channel == key[3..] && c.data == value
  {
    var channel := key[3..];
    if channel == "02" then
      if value != [] then SetBarLength(BarOf(key), value) else NoOp
    else if NonNoteChannel(channel) || value == [] then NoOp
    else ChannelData(BarOf(key), channel, value)
  }

  /** What a chart line asks for; lines that are not commands ask nothing. */
  function ReadLine(line: string): (c: Command)
    ensures ValidCommand(c)
    ensures Tokenize(line).None? ==> c.NoOp?
    ensures Tokenize(line).Some? ==>
      var key := Tokenize(line).value.0;
      IsDataKey(key) && NonNoteChannel(key[3..]) ==> c.NoOp?
    ensures Tokenize(line).Some? ==> c == Dispatch(Tokenize(line).value.0, Tokenize(line).value.1)
  {
    match Tokenize(line)
    case None => NoOp
    case Some((key, value)) => Dispatch(key, value)
  }

  /** The definitions gathered by the first pass. */
  datatype Defs = Defs(
    title: string,
    artist: string,
    bpm: real,
    wavFiles: map<string, string>,
    bpmChanges: map<string, real>,
    barLengthChanges: map<nat, real>,
    wavVolumes: map<string, int>,
    bgmWavId: Option<string>)

  /** The defaults a chart starts from. */
  const Initial: Defs := Defs("Untitled", "Unknown", 120.0, map[], map[], map[], map[], None)

  /** Python's `float(text)`, which the model takes as the parameter
      `toReal`: `None` where `float` raises. */
  function Float(text: string, toReal: string -> Option<real>): Option<real> {
    toReal(text)
  }

  /** A command applied to the definitions. A number that does not read
      leaves everything unchanged (the source prints a warning). */
  function Apply(d: Defs, c: Command, toReal: string -> Option<real>): (e: Defs)
    ensures !c.SetBarLength? ==> e.barLengthChanges == d.barLengthChanges
    ensures c.SetBarLength? && Float(c.text, toReal).Some? ==>
      e.barLengthChanges == d.barLengthChanges[c.bar := Float(c.text, toReal).value]
    ensures c.SetBarLength? && Float(c.text, toReal).None? ==> e == d
    ensures c.NoOp? || c.ChannelData? ==> e == d
    ensures e.title == if c.SetTitle? then c.title else d.title
    ensures e.artist == if c.SetArtist? then c.artist else d.artist
    ensures e.bpm == if c.SetBpm? && Float(c.text, toReal).Some? then Float(c.text, toReal).value else d.bpm
    ensures e.wavFiles == if c.DefineWav? then d.wavFiles[c.id := c.path] else d.wavFiles
    ensures e.bgmWavId == if c.SetBgmWav? then Some(c.id) else d.bgmWavId
    ensures !c.DefineBpm? ==> e.bpmChanges == d.bpmChanges
    ensures c.DefineBpm? ==> e.bpmChanges == match Float(c.text, toReal)
                                             case Some(b) => d.bpmChanges[c.id := b]
                                             case None => d.bpmChanges
    ensures e.wavVolumes == if c.DefineVolume? && c.volume.Some? then d.wavVolumes[c.id := c.volume.value] else d.wavVolumes
  {
    match c
    case NoOp => d
    case ChannelData(_, _, _) => d
    case SetTitle(t) => d.(title := t)
    case SetArtist(a) => d.(artist := a)
    case SetBpm(text) =>
      (match Float(text, toReal) case Some(b) => d.(bpm := b) case None => d)
    case DefineWav(id, path) => d.(wavFiles := d.wavFiles[id := path])
    case SetBgmWav(id) => d.(bgmWavId := Some(id))
    case DefineBpm(id, text) =>
      (match Float(text, toReal) case Some(b) => d.(bpmChanges := d.bpmChanges[id := b]) case None => d)
    case DefineVolume(id, volume) =>
      (match volume case Some(v) => d.(wavVolumes := d.wavVolumes[id := v]) case None => d)
    case SetBarLength(bar, text) =>
      (match Float(text, toReal) case Some(m) => d.(barLengthChanges := d.barLengthChanges[bar := m]) case None => d)
  }

  /** The raw events of the first `n` codes of a line: one per code that
      is not `00`, at that code's index, in order, each knowing how many
      codes the line has. */
  function CodeEvents(bar: nat, channel: string, codes: seq<string>, n: nat): seq<RawEvent>
    requires n <= |codes|
  {
    if n == 0 then []
    else
      CodeEvents(bar, channel, codes, n - 1)
      + (if codes[n - 1] != "00" then [RawEvent(bar, channel, n - 1, |codes|, codes[n - 1])] else [])
  }

  /** Every event is a code other than `00` among the first `n`, at its
      index, with the line's bar, channel and number of codes. */
  lemma {:induction false} CodeEventsShape(bar: nat, channel: string, codes: seq<string>, n: nat)
    requires n <= |codes|
    ensures var r := CodeEvents(bar, channel, codes, n);
      && |r| <= n
      && forall k :: 0 <= k < |r| ==>
        && r[k].bar == bar && r[k].channel == channel && r[k].total == |codes|
        && r[k].pos < n && r[k].val == codes[r[k].pos] && r[k].val != "00"
  {
    if n > 0 {
      CodeEventsShape(bar, channel, codes, n - 1);
    }
  }

  /** Events in strictly increasing order of slot. */
  predicate PosIncreasing(r: seq<RawEvent>) {
    forall k, m :: 0 <= k < m < |r| ==> r[k].pos < r[m].pos
  }

  /** The events come in the order of their codes. */
  lemma {:induction false} CodeEventsOrdered(bar: nat, channel: string, codes: seq<string>, n: nat)
    requires n <= |codes|
    ensures PosIncreasing(CodeEvents(bar, channel, codes, n))
  {
    if n > 0 {
      CodeEventsOrdered(bar, channel, codes, n - 1);
      CodeEventsShape(bar, channel, codes, n - 1);
      var before := CodeEvents(bar, channel, codes, n - 1);
      var r := CodeEvents(bar, channel, codes, n);
      var last := if codes[n - 1] != "00" then [RawEvent(bar, channel, n - 1, |codes|, codes[n - 1])] else [];
      assert r == before + last;
      forall k, m | 0 <= k < m < |r|
        ensures r[k].pos < r[m].pos
      {
        assert r[k] == before[k];
        if m < |before| {
          assert r[m] == before[m];
        } else {
          assert r[m] == last[0];
        }
      }
    }
  }

  /** Every one of the first `n` codes other than `00` has an event. */
  predicate CoversCodes(r: seq<RawEvent>, codes: seq<string>, n: nat)
    requires n <= |codes|
  {
    forall i :: 0 <= i < n && codes[i] != "00" ==> exists k :: 0 <= k < |r| && r[k].pos == i
  }

  /** Coverage carries over to one more code when that code, unless it is
      `00`, gets an event. */
  lemma CoversSnoc(before: seq<RawEvent>, last: seq<RawEvent>, codes: seq<string>, n: nat)
    requires 0 < n <= |codes| && CoversCodes(before, codes, n - 1)
    requires codes[n - 1] != "00" ==> |last| == 1 && last[0].pos == n - 1
    ensures CoversCodes(before + last, codes, n)
  {
    var r := before + last;
    forall i | 0 <= i < n && codes[i] != "00"
      ensures exists k :: 0 <= k < |r| && r[k].pos == i
    {
      if i < n - 1 {
        var k :| 0 <= k < |before| && before[k].pos == i;
        assert r[k] == before[k];
      } else {
        assert r[|before|] == last[0];
      }
    }
  }

  /** No code other than `00` is skipped. */
  lemma {:induction false} CodeEventsComplete(bar: nat, channel: string, codes: seq<string>, n: nat)
    requires n <= |codes|
    ensures CoversCodes(CodeEvents(bar, channel, codes, n), codes, n)
  {
    if n > 0 {
      CodeEventsComplete(bar, channel, codes, n - 1);
      var before := CodeEvents(bar, channel, codes, n - 1);
      var last := if codes[n - 1] != "00" then [RawEvent(bar, channel, n - 1, |codes|, codes[n - 1])] else [];
      CoversSnoc(before, last, codes, n);
      assert CodeEvents(bar, channel, codes, n) == before + last;
    }
  }

  /** The raw events of a channel-data line: its data cut into
      two-character codes, each event knowing how many codes the line has. */
  function ChipEvents(bar: nat, channel: string, data: string): seq<RawEvent> {
    var codes := Text.Pairs(data);
    CodeEvents(bar, channel, codes, |codes|)
  }

  /** The raw events one command contributes. */
  function CommandEvents(c: Command): seq<RawEvent> {
    if c.ChannelData? then ChipEvents(c.bar, c.channel, c.data) else []
  }

  /** `f` applied to every element, in order. */
  function Map<A, B>(f: A -> B, s: seq<A>): (r: seq<B>)
    ensures |r| == |s|
    ensures forall i :: 0 <= i < |s| ==> r[i] == f(s[i])
  {
    seq(|s|, i requires 0 <= i < |s| => f(s[i]))
  }

  lemma MapSnoc<A, B>(f: A -> B, s: seq<A>, i: nat)
    requires i < |s|
    ensures Map(f, s[..i + 1]) == Map(f, s[..i]) + [f(s[i])]
  {
    var a, b := Map(f, s[..i + 1]), Map(f, s[..i]) + [f(s[i])];
    forall k | 0 <= k < |a|
      ensures a[k] == b[k]
    {
      assert s[..i + 1][k] == s[k];
      if k < i {
        assert s[..i][k] == s[k];
      }
    }
  }

  /** The commands of a chart's lines, one per line. */
  function ReadLines(lines: seq<string>): (cs: seq<Command>)
    ensures |cs| == |lines|
    ensures forall i :: 0 <= i < |lines| ==> cs[i] == ReadLine(lines[i])
  {
    Map(ReadLine, lines)
  }

  /** Reading one more line adds its command at the end. */
  lemma ReadLinesSnoc(lines: seq<string>, i: nat)
    requires i < |lines|
    ensures ReadLines(lines[..i + 1]) == ReadLines(lines[..i]) + [ReadLine(lines[i])]
  {
    MapSnoc(ReadLine, lines, i);
  }

  /** The definitions after every command, first to last. */
  function ApplyAll(d: Defs, cs: seq<Command>, toReal: string -> Option<real>): Defs {
    if cs == [] then d
    else Apply(ApplyAll(d, cs[..|cs| - 1], toReal), cs[|cs| - 1], toReal)
  }

  /** The raw events of every command, in the order of the commands. */
  function AllEvents(cs: seq<Command>): seq<RawEvent> {
    if cs == [] then []
    else AllEvents(cs[..|cs| - 1]) + CommandEvents(cs[|cs| - 1])
  }

  /** Every event a well-formed event has: a slot inside its line, a
      note channel, a code that is not `00`. */
  predicate WellFormedEvent(e: RawEvent) {
    && e.pos < e.total
    && |e.channel| == 2
    && e.channel != "02" && !NonNoteChannel(e.channel)
    && e.val != "00" && 1 <= |e.val| <= 2
  }

  /** A channel-data line yields exactly one well-formed event per code
      that is not `00`, at that code's index, with the line's bar and
      channel; an odd-length value ends in a one-character code. */
  lemma ChipEventsSpec(bar: nat, channel: string, data: string)
    requires |channel| == 2 && channel != "02" && !NonNoteChannel(channel)
    ensures var codes, r := Text.Pairs(data), ChipEvents(bar, channel, data);
      && (forall k :: 0 <= k < |r| ==>
           WellFormedEvent(r[k]) && r[k].bar == bar && r[k].channel == channel
           && r[k].total == |codes| && r[k].val == codes[r[k].pos])
      && (forall i :: 0 <= i < |codes| && codes[i] != "00" ==>
           exists k :: 0 <= k < |r| && r[k].pos == i)
      && (forall k, m :: 0 <= k < m < |r| ==> r[k].pos < r[m].pos)
      && (data == [] ==> r == [])
      && (|data| % 2 == 1 ==> |codes[|codes| - 1]| == 1)
  {
    var codes := Text.Pairs(data);
    CodeEventsShape(bar, channel, codes, |codes|);
    CodeEventsOrdered(bar, channel, codes, |codes|);
    CodeEventsComplete(bar, channel, codes, |codes|);
  }

  /** What `Dispatch` guarantees of every command it makes: note data
      comes only on a two-character note channel. */
  predicate ValidCommand(c: Command) {
    c.ChannelData? ==> |c.channel| == 2 && c.channel != "02" && !NonNoteChannel(c.channel)
  }

  /** Every raw event of a chart is well formed. */
  lemma {:induction false} AllEventsWellFormed(cs: seq<Command>)
    requires forall i :: 0 <= i < |cs| ==> ValidCommand(cs[i])
    ensures forall e :: e in AllEvents(cs) ==> WellFormedEvent(e)
  {
    if cs != [] {
      var n := |cs| - 1;
      assert forall i :: 0 <= i < n ==> cs[..n][i] == cs[i];
      AllEventsWellFormed(cs[..n]);
      var c := cs[n];
      if c.ChannelData? {
        ChipEventsSpec(c.bar, c.channel, c.data);
      }
    }
  }

  lemma ApplyAllSnoc(d: Defs, cs: seq<Command>, c: Command, toReal: string -> Option<real>)
    ensures ApplyAll(d, cs + [c], toReal) == Apply(ApplyAll(d, cs, toReal), c, toReal)
  {
    assert (cs + [c])[..|cs|] == cs;
  }

  /** A line that asks for nothing, wherever it stands in the chart,
      leaves the definitions as they were. */
  lemma {:induction false} NoOpInert(d: Defs, a: seq<Command>, b: seq<Command>, toReal: string -> Option<real>)
    ensures ApplyAll(d, a + [NoOp] + b, toReal) == ApplyAll(d, a + b, toReal)
    decreases |b|
  {
    if b == [] {
      assert a + [NoOp] + b == a + [NoOp] && a + b == a;
      ApplyAllSnoc(d, a, NoOp, toReal);
    } else {
      var init, x := b[..|b| - 1], b[|b| - 1];
      assert a + [NoOp] + b == (a + [NoOp] + init) + [x];
      assert a + b == (a + init) + [x];
      NoOpInert(d, a, init, toReal);
      ApplyAllSnoc(d, a + [NoOp] + init, x, toReal);
      ApplyAllSnoc(d, a + init, x, toReal);
    }
  }

  /** ... and adds no raw event. */
  lemma {:induction false} NoOpNoEvents(a: seq<Command>, b: seq<Command>)
    ensures AllEvents(a + [NoOp] + b) == AllEvents(a + b)
    decreases |b|
  {
    if b == [] {
      assert a + [NoOp] + b == a + [NoOp] && a + b == a;
      AllEventsSnoc(a, NoOp);
    } else {
      var init, x := b[..|b| - 1], b[|b| - 1];
      assert a + [NoOp] + b == (a + [NoOp] + init) + [x];
      assert a + b == (a + init) + [x];
      NoOpNoEvents(a, init);
      AllEventsSnoc(a + [NoOp] + init, x);
      AllEventsSnoc(a + init, x);
    }
  }

  lemma AllEventsSnoc(cs: seq<Command>, c: Command)
    ensures AllEvents(cs + [c]) == AllEvents(cs) + CommandEvents(c)
  {
    assert (cs + [c])[..|cs|] == cs;
  }

  /** `bar_length_changes[bar]` holds the value of the last line that set
      it: a later `02` line for the same bar overwrites an earlier one,
      unless `float()` rejects its value, in which case it changes nothing. */
  lemma {:induction false} BarLengthLastWriter(d: Defs, cs: seq<Command>, k: nat,
                                              toReal: string -> Option<real>)
    requires k < |cs|
    requires cs[k].SetBarLength? && Float(cs[k].text, toReal).Some?
    requires forall j :: k < j < |cs| ==>
      !(cs[j].SetBarLength? && cs[j].bar == cs[k].bar && Float(cs[j].text, toReal).Some?)
    ensures cs[k].bar in ApplyAll(d, cs, toReal).barLengthChanges
    ensures ApplyAll(d, cs, toReal).barLengthChanges[cs[k].bar] == Float(cs[k].text, toReal).value
  {
    var n := |cs| - 1;
    if k < n {
      assert forall j :: k < j < n ==> cs[..n][j] == cs[j];
      BarLengthLastWriter(d, cs[..n], k, toReal);
    } else {
      assert cs[..n][..n] == cs[..n];
    }
  }
}

=== FILE: dtxparse.dfy ===
/** `Dtx.parse` as the object it fills in. The first pass reads the chart
    line by line into the definitions and collects the raw events; the
    second pass builds the bar-start table, annotates each event with its
    global beat, sorts the events by beat and walks them, appending the
    timed notes and fixing the BGM start, then sorts the notes. Each
    method is proved against the functions of `ChartLines` and `Timing`. */
module DtxParse {
  import opened Wrappers
  import Text
  import Sorting
  import ChartLines
  import Timing
  import Numbers

  type RawEvent = ChartLines.RawEvent

  /** Without a `#BGMWAV` line, WAV `01`, when defined, is the background
      music. */
  function DefaultBgm(d: ChartLines.Defs): (r: ChartLines.Defs)
    ensures r == d.(bgmWavId := r.bgmWavId)
    ensures r.bgmWavId != d.bgmWavId ==> r.bgmWavId == Some("01") && "01" in r.wavFiles
    ensures (d.bgmWavId.None? || d.bgmWavId == Some("")) && "01" in d.wavFiles ==> r.bgmWavId == Some("01")
    ensures d.bgmWavId.Some? && d.bgmWavId.value != [] ==> r == d
  {
    if (d.bgmWavId.None? || d.bgmWavId == Some("")) && "01" in d.wavFiles then d.(bgmWavId := Some("01"))
    else d
  }

  /** Defaulting the music twice changes nothing more. */
  lemma DefaultBgmIdempotent(d: ChartLines.Defs)
    ensures DefaultBgm(DefaultBgm(d)) == DefaultBgm(d)
  {
  }

  /** The definitions a chart's lines leave, starting from `d`. */
  function ChartDefs(d: ChartLines.Defs, lines: seq<string>, toReal: string -> Option<real>): ChartLines.Defs {
    DefaultBgm(ChartLines.ApplyAll(d, ChartLines.ReadLines(lines), toReal))
  }

  /** The raw events of a chart's lines, every one of them well formed. */
  function ChartEvents(lines: seq<string>): (raws: seq<RawEvent>)
    ensures forall i :: 0 <= i < |raws| ==> ChartLines.WellFormedEvent(raws[i])
  {
    var cs := ChartLines.ReadLines(lines);
    ChartLines.AllEventsWellFormed(cs);
    var raws := ChartLines.AllEvents(cs);
    assert forall i :: 0 <= i < |raws| ==> raws[i] in raws;
    raws
  }

  /** The timeline a chart's lines give, starting from definitions `d`. */
  function ChartTimeline(d: ChartLines.Defs, lines: seq<string>, toReal: string -> Option<real>): Option<Timing.Timeline> {
    Timing.BuildTimeline(ChartDefs(d, lines, toReal), ChartEvents(lines))
  }

  /** The timeline is the walk's notes, sorted, and its BGM start, or 0
      without one; there is none when the walk halts. */
  lemma ChartTimelineWalk(d0: ChartLines.Defs, lines: seq<string>, toReal: string -> Option<real>)
    ensures var d, raws := ChartDefs(d0, lines, toReal), ChartEvents(lines);
      var w := Timing.WalkAll(Timing.Start(d.bpm), Timing.SortedEvents(d.barLengthChanges, raws), d.bpmChanges, Timing.Hex);
      && (ChartTimeline(d0, lines, toReal).Some? <==> !w.halted)
      && (!w.halted ==> ChartTimeline(d0, lines, toReal).value.notes == Sorting.SortBy(w.notes, Timing.NoteLe))
      && (!w.halted ==> ChartTimeline(d0, lines, toReal).value.bgmStartMs == w.bgmMs.GetOr(0.0))
  {
  }

  /** The `for i, note_val in enumerate(notes)` loop: the events of one
      channel-data line. */
  method CollectChipEvents(bar: nat, channel: string, data: string) returns (found: seq<RawEvent>)
    ensures found == ChartLines.ChipEvents(bar, channel, data)
  {
    var notes := Text.Pairs(data);
    found := [];
    var i := 0;
    while i < |notes|
      invariant 0 <= i <= |notes|
      invariant found == ChartLines.CodeEvents(bar, channel, notes, i)
    {
      if notes[i] != "00" {
        found := found + [ChartLines.RawEvent(bar, channel, i, |notes|, notes[i])];
      }
      i := i + 1;
    }
  }

  /** `max(e["bar"] for e in raw_events)`, or 0 without events. */
  method MaxBar(raws: seq<RawEvent>) returns (m: nat)
    ensures forall i :: 0 <= i < |raws| ==> raws[i].bar <= m
    ensures raws != [] ==> exists i :: 0 <= i < |raws| && raws[i].bar == m
    ensures raws == [] ==> m == 0
  {
    m := 0;
    if raws != [] {
      m := raws[0].bar;
      var i := 1;
      while i < |raws|
        invariant 1 <= i <= |raws|
        invariant forall j :: 0 <= j < i ==> raws[j].bar <= m
        invariant exists j :: 0 <= j < i && raws[j].bar == m
      {
        if raws[i].bar > m {
          m := raws[i].bar;
        }
        i := i + 1;
      }
    }
  }

  /** The `bar_start_beats` table: an entry for every bar up to one past
      `maxBar`, each the start beat of that bar. */
  method BarStartTable(lengths: map<nat, real>, maxBar: nat) returns (table: map<nat, real>)
    ensures forall b: nat :: b in table <==> b <= maxBar + 1
    ensures forall b: nat {:trigger table[b]} :: b <= maxBar + 1 ==> table[b] == Timing.BarStart(lengths, b)
  {
    table := map[0 := 0.0];
    var i := 0;
    while i <= maxBar
      invariant 0 <= i <= maxBar + 1
      invariant forall b: nat :: b in table <==> b <= i
      invariant forall b: nat {:trigger table[b]} :: b <= i ==> table[b] == Timing.BarStart(lengths, b)
    {
      var mult := if i in lengths then lengths[i] else 1.0;
      var next := table[i + 1 := table[i] + 4.0 * mult];
      forall b: nat | b <= i + 1
        ensures b in next && next[b] == Timing.BarStart(lengths, b)
      {
        if b <= i {
          assert next[b] == table[b];
        }
      }
      table := next;
      i := i + 1;
    }
  }

  /** Every raw event annotated with its `global_beat`, read off the
      bar-start table. */
  method AnnotateBeats(lengths: map<nat, real>, raws: seq<RawEvent>) returns (evs: seq<Timing.BeatEvent>)
    requires forall i :: 0 <= i < |raws| ==> raws[i].total > 0
    ensures evs == Timing.Annotate(lengths, raws)
  {
    var maxBar := MaxBar(raws);
    var table := BarStartTable(lengths, maxBar);
    evs := [];
    var i := 0;
    while i < |raws|
      invariant 0 <= i <= |raws|
      invariant |evs| == i
      invariant forall j :: 0 <= j < i ==> evs[j] == Timing.BeatEvent(raws[j], Timing.GlobalBeat(lengths, raws[j]))
    {
      var e := raws[i];
      var mult := if e.bar in lengths then lengths[e.bar] else 1.0;
      var inBar := (e.pos as real / e.total as real) * (4.0 * mult);
      evs := evs + [Timing.BeatEvent(e, table[e.bar] + inBar)];
      i := i + 1;
    }
  }

  /** `Dtx`: the chart's definitions, the BGM start and the timed notes,
      all updated in place by `Parse`. */
  /** One event of the walk at a nonzero tempo: the event's time in
      seconds, the tempo after it, whether it is the first background-music
      event (whose time becomes the music's start) and the note it adds, if
      any. The result is the walk's step from the state the locals hold. */
  method EventStep(ghost st: Timing.WalkState, ev: Timing.BeatEvent, bpmChanges: map<string, real>,
                   hex: string -> Option<int>, currentTime: real, currentBpm: real, lastBeat: real,
                   firstBgmDone: bool)
    returns (eventTime: real, newBpm: real, startsBgm: bool, note: Option<Timing.TimedNote>)
    requires !st.halted && currentBpm != 0.0
    requires currentTime == st.timeS && currentBpm == st.bpm && lastBeat == st.lastBeat
    requires firstBgmDone == st.bgmMs.Some?
    ensures var r := Timing.Step(st, ev, bpmChanges, hex);
      && !r.halted && eventTime == r.timeS && newBpm == r.bpm && r.lastBeat == ev.beat
      && r.notes == st.notes + (if note.Some? then [note.value] else [])
      && r.bgmMs == (if startsBgm then Some(eventTime * 1000.0) else st.bgmMs)
      && (startsBgm ==> !firstBgmDone)
  {
    eventTime := currentTime + (ev.beat - lastBeat) * (60.0 / currentBpm);
    newBpm, startsBgm, note := currentBpm, false, None;
    var channel, value := ev.raw.channel, ev.raw.val;
    if channel == "01" {
      if !firstBgmDone {
        startsBgm := true;
      }
    } else if channel == "03" {
      match hex(value) {
        case Some(n) => newBpm := n as real;
        case None =>
      }
    } else if channel == "08" {
      if value in bpmChanges {
        newBpm := bpmChanges[value];
      }
    } else {
      note := Some(Timing.TimedNote(eventTime * 1000.0, channel, value));
    }
  }

  class Dtx {
    var title: string
    var artist: string
    var bpm: real
    var wavFiles: map<string, string>
    var bpmChanges: map<string, real>
    var barLengthChanges: map<nat, real>
    var wavVolumes: map<string, int>
    var bgmWavId: Option<string>
    var bgmStartTimeMs: real
    var timedNotes: seq<Timing.TimedNote>

    /** The definitions as one value. */
    function Definitions(): ChartLines.Defs
      reads this`title, this`artist, this`bpm, this`wavFiles, this`bpmChanges
      reads this`barLengthChanges, this`wavVolumes, this`bgmWavId
    {
      ChartLines.Defs(title, artist, bpm, wavFiles, bpmChanges, barLengthChanges, wavVolumes, bgmWavId)
    }

    /** The defaults of `Dtx.__init__`. */
    constructor ()
      ensures Definitions() == ChartLines.Initial
      ensures bgmStartTimeMs == 0.0 && timedNotes == []
    {
      title := "Untitled";
      artist := "Unknown";
      bpm := 120.0;
      wavFiles := map[];
      bpmChanges := map[];
      barLengthChanges := map[];
      wavVolumes := map[];
      bgmWavId := None;
      bgmStartTimeMs := 0.0;
      timedNotes := [];
    }

    /** One line's command carried out on the definitions. */
    method Perform(c: ChartLines.Command, toReal: string -> Option<real>)
      modifies this`title, this`artist, this`bpm, this`wavFiles, this`bpmChanges,
        this`barLengthChanges, this`wavVolumes, this`bgmWavId
      ensures Definitions() == ChartLines.Apply(old(Definitions()), c, toReal)
    {
      match c
      case NoOp =>
      case ChannelData(_, _, _) =>
      case SetTitle(t) =>
        title := t;
      case SetArtist(a) =>
        artist := a;
      case SetBpm(text) =>
        match ChartLines.Float(text, toReal) {
          case Some(b) =>
            bpm := b;
          case None =>
        }
      case DefineWav(id, path) =>
        wavFiles := wavFiles[id := path];
      case SetBgmWav(id) =>
        bgmWavId := Some(id);
      case DefineBpm(id, text) =>
        match ChartLines.Float(text, toReal) {
          case Some(b) =>
            bpmChanges := bpmChanges[id := b];
          case None =>
        }
      case DefineVolume(id, volume) =>
        match volume {
          case Some(v) =>
            wavVolumes := wavVolumes[id := v];
          case None =>
        }
      case SetBarLength(bar, text) =>
        match ChartLines.Float(text, toReal)
        case Some(m) =>
          barLengthChanges := barLengthChanges[bar := m];
        case None =>
    }

    /** The first pass: every line read in turn into the definitions, and
      the raw events of the channel-data lines collected in order. */
    method ReadChart(lines: seq<string>, toReal: string -> Option<real>) returns (raws: seq<RawEvent>)
      modifies this`title, this`artist, this`bpm, this`wavFiles, this`bpmChanges,
        this`barLengthChanges, this`wavVolumes, this`bgmWavId
      ensures Definitions() == ChartLines.ApplyAll(old(Definitions()), ChartLines.ReadLines(lines), toReal)
      ensures raws == ChartLines.AllEvents(ChartLines.ReadLines(lines))
    {
      raws := [];
      var i := 0;
      while i < |lines|
        invariant 0 <= i <= |lines|
        invariant Definitions() == ChartLines.ApplyAll(old(Definitions()), ChartLines.ReadLines(lines[..i]), toReal)
        invariant raws == ChartLines.AllEvents(ChartLines.ReadLines(lines[..i]))
      {
        var c := ChartLines.ReadLine(lines[i]);
        ChartLines.ReadLinesSnoc(lines, i);
        ChartLines.ApplyAllSnoc(old(Definitions()), ChartLines.ReadLines(lines[..i]), c, toReal);
        ChartLines.AllEventsSnoc(ChartLines.ReadLines(lines[..i]), c);
        Perform(c, toReal);
        if c.ChannelData? {
          var found := CollectChipEvents(c.bar, c.channel, c.data);
          raws := raws + found;
        }
        i := i + 1;
      }
      assert lines[..i] == lines;
    }

    /** The timing walk over the sorted events: notes are appended to
      `timedNotes` and the first `01` event sets `bgmStartTimeMs`. A zero
      tempo stops the walk where it is, with `halted` set. `hex` is the
      reader of channel-`03` tempos, `int(value, 16)`. */
    method Walk(evs: seq<Timing.BeatEvent>, hex: string -> Option<int>) returns (halted: bool)
      modifies this`timedNotes, this`bgmStartTimeMs
      ensures var w := Timing.WalkAll(Timing.Start(old(bpm)), evs, old(bpmChanges), hex);
        && halted == w.halted
        && timedNotes == old(timedNotes) + w.notes
        && bgmStartTimeMs == (if w.bgmMs.Some? then w.bgmMs.value else old(bgmStartTimeMs))
    {
      ghost var st0 := Timing.Start(bpm);
      var currentTime := 0.0;
      var currentBpm := bpm;
      var lastBeat := 0.0;
      var firstBgmDone := false;
      var notes := timedNotes;
      var bgmMs := bgmStartTimeMs;
      var i := 0;
      ghost var st := st0;
      while i < |evs| && currentBpm != 0.0
        invariant 0 <= i <= |evs|
        invariant unchanged(this)
        invariant st == Timing.WalkTo(st0, evs, bpmChanges, hex, i)
        invariant !st.halted && currentTime == st.timeS && currentBpm == st.bpm && lastBeat == st.lastBeat
        invariant notes == timedNotes + st.notes
        invariant firstBgmDone == st.bgmMs.Some?
        invariant bgmMs == (if st.bgmMs.Some? then st.bgmMs.value else bgmStartTimeMs)
      {
        var eventTime, newBpm, startsBgm, note := EventStep(st, evs[i], bpmChanges, hex, currentTime, currentBpm, lastBeat, firstBgmDone);
        if startsBgm {
          bgmMs := eventTime * 1000.0;
          firstBgmDone := true;
        }
        if note.Some? {
          Sorting.AppendAssociative(timedNotes, st.notes, [note.value]);
          notes := notes + [note.value];
        }
        currentBpm := newBpm;
        currentTime := eventTime;
        lastBeat := evs[i].beat;
        Timing.WalkToNext(st0, evs, bpmChanges, hex, i);
        st := Timing.Step(st, evs[i], bpmChanges, hex);
        i := i + 1;
      }
      halted := i < |evs|;
      if halted {
        // `60.0 / current_bpm` raises at event `i`.
        Timing.HaltsAt(st0, evs, bpmChanges, hex, i);
      }
      timedNotes, bgmStartTimeMs := notes, bgmMs;
    }

    /** The second pass over the raw events: beats, the stable sort by
      beat, the walk and the sort of the notes. `ok` is false when a zero
      tempo stops the walk (the division raises, which ends the program);
      the fields then keep what was done up to that event. */
    method Schedule(raws: seq<RawEvent>) returns (ok: bool)
      requires forall i :: 0 <= i < |raws| ==> raws[i].total > 0
      modifies this`timedNotes, this`bgmStartTimeMs
      ensures var d := Definitions();
        var w := Timing.WalkAll(Timing.Start(d.bpm), Timing.SortedEvents(d.barLengthChanges, raws), d.bpmChanges, Timing.Hex);
        && ok == !w.halted
        && timedNotes == (if ok then Sorting.SortBy(old(timedNotes) + w.notes, Timing.NoteLe) else old(timedNotes) + w.notes)
        && bgmStartTimeMs == (if w.bgmMs.Some? then w.bgmMs.value else old(bgmStartTimeMs))
    {
      var evs := AnnotateBeats(barLengthChanges, raws);
      var sorted := Sorting.SortBy(evs, Timing.BeatLe);
      var halted := Walk(sorted, Timing.Hex);
      if halted {
        return false;
      }
      timedNotes := Sorting.SortBy(timedNotes, Timing.NoteLe);
      ok := true;
    }

    /** Without a `#BGMWAV` line, WAV `01`, when defined, becomes the
      background music. */
    method DefaultBgmWav()
      modifies this`bgmWavId
      ensures Definitions() == DefaultBgm(old(Definitions()))
    {
      if (bgmWavId.None? || bgmWavId == Some("")) && "01" in wavFiles {
        bgmWavId := Some("01");
      }
    }

    /** `Dtx.parse`: the first pass, the default BGM, then the second pass.
      From a fresh object, the notes and the BGM start are the chart's
      timeline. */
    method Parse(lines: seq<string>, toReal: string -> Option<real>) returns (ok: bool)
      modifies this
      ensures Definitions() == ChartDefs(old(Definitions()), lines, toReal)
      ensures var d, raws := Definitions(), ChartEvents(lines);
        var w := Timing.WalkAll(Timing.Start(d.bpm), Timing.SortedEvents(d.barLengthChanges, raws), d.bpmChanges, Timing.Hex);
        && ok == !w.halted
        && timedNotes == (if ok then Sorting.SortBy(old(timedNotes) + w.notes, Timing.NoteLe) else old(timedNotes) + w.notes)
        && bgmStartTimeMs == (if w.bgmMs.Some? then w.bgmMs.value else old(bgmStartTimeMs))
    {
      var raws := ReadChart(lines, toReal);
      DefaultBgmWav();
      ghost var d := Definitions();
      assert d == ChartDefs(old(Definitions()), lines, toReal);
      assert raws == ChartEvents(lines);
      assert timedNotes == old(timedNotes) && bgmStartTimeMs == old(bgmStartTimeMs);
      ok := Schedule(raws);
    }
  }

  /** What the program does with a chart: a fresh `Dtx`, then `parse()`.
      Its notes and BGM start are the chart's timeline, and `ok` is false
      exactly when the chart has no timeline. */
  method Load(lines: seq<string>, toReal: string -> Option<real>) returns (dtx: Dtx, ok: bool)
    ensures fresh(dtx)
    ensures dtx.Definitions() == ChartDefs(ChartLines.Initial, lines, toReal)
    ensures var t := ChartTimeline(ChartLines.Initial, lines, toReal);
      && ok == t.Some?
      && (ok ==> dtx.timedNotes == t.value.notes && dtx.bgmStartTimeMs == t.value.bgmStartMs)
  {
    dtx := new Dtx();
    ok := dtx.Parse(lines, toReal);
    ChartTimelineWalk(ChartLines.Initial, lines, toReal);
    ghost var d := dtx.Definitions();
    ghost var w := Timing.WalkAll(Timing.Start(d.bpm), Timing.SortedEvents(d.barLengthChanges, ChartEvents(lines)),
                                  d.bpmChanges, Timing.Hex);
    assert [] + w.notes == w.notes;
  }
}

=== FILE: numbers.dfy ===
/** Python's `int(s, base)` on ASCII text, as used by `base36_to_int`
    (base 36), by the direct-tempo channel (base 16) and by `#VOLUME`
    (base 10), together with the base-36 formatter that `base36_to_int` inverts. */
module Numbers {
  import opened Wrappers
  import Text

  /** The whitespace `int()` skips around the number: the ASCII characters
      `\t \n \v \f \r` and space, and every non-ASCII character that
      `str.isspace()` accepts. (ASCII `\x1c`-`\x1f` count as space for
      `strip()` but not for `int()`.) */
  predicate IntSpace(c: char) {
    c == ' ' || '\t' <= c <= '\r' || (c as int >= 127 && Text.IsSpace(c))
  }

  /** The value of `c` as a digit of base up to 36 (`0`-`9`, then `a` or `A`
      for 10 up to `z` or `Z` for 35); 36 for a character that is no digit. */
  function DigitValue(c: char): (d: nat)
    ensures d <= 36
  {
    if '0' <= c <= '9' then c as int - '0' as int
    else if 'a' <= c <= 'z' then c as int - 'a' as int + 10
    else if 'A' <= c <= 'Z' then c as int - 'A' as int + 10
    else 36
  }

  /** The digits of a number once sign and prefix are gone: digits below
      `base`, with single underscores allowed only between two digits. */
  predicate WellFormedDigits(w: string, base: nat) {
    && w != []
    && w[0] != '_'
    && w[|w| - 1] != '_'
    && (forall i :: 0 <= i < |w| ==> w[i] == '_' || DigitValue(w[i]) < base)
    && NoDoubleUnderscore(w)
  }

  /** No two underscores in a row. */
  predicate NoDoubleUnderscore(w: string) {
    |w| < 2 || ((w[0] != '_' || w[1] != '_') && NoDoubleUnderscore(w[1..]))
  }

  /** `w` with its underscores removed. */
  function WithoutUnderscores(w: string): string {
    if w == [] then []
    else (if w[0] == '_' then [] else [w[0]]) + WithoutUnderscores(w[1..])
  }

  /** The value of a digit string read most significant digit first. */
  function DigitsValue(ds: string, base: nat): nat {
    if ds == [] then 0
    else DigitsValue(ds[..|ds| - 1], base) * base + DigitValue(ds[|ds| - 1])
  }

  /** `u` without the `0x`/`0X` prefix (and the one underscore allowed
      after it) that base 16 accepts. */
  function DropPrefix(u: string, base: nat): string {
    if base == 16 && |u| >= 2 && u[0] == '0' && (u[1] == 'x' || u[1] == 'X') then
      var w := u[2..];
      if w != [] && w[0] == '_' then w[1..] else w
    else u
  }

  /** Python's `int(s, base)`: `None` where Python raises `ValueError`.
      Surrounding whitespace, then an optional sign, then (base 16 only)
      an optional `0x` prefix, then the digits. */
  function ParseInt(s: string, base: nat): (r: Option<int>)
    requires 2 <= base <= 36
    ensures s == [] ==> r.None?
  {
    ParseSigned(Text.StripWith(s, IntSpace), base)
  }

  /** The stripped text: an optional sign in front of the digits. */
  function ParseSigned(t: string, base: nat): Option<int>
    requires 2 <= base <= 36
  {
    if t != [] && t[0] == '-' then
      var n := ParseDigits(t[1..], base);
      if n.Some? then Some(-n.value) else None
    else if t != [] && t[0] == '+' then ParseDigits(t[1..], base)
    else ParseDigits(t, base)
  }

  /** The unsigned part: an optional prefix, then well-formed digits. */
  function ParseDigits(u: string, base: nat): Option<int>
    requires 2 <= base <= 36
  {
    var w := DropPrefix(u, base);
    if WellFormedDigits(w, base) then Some(DigitsValue(WithoutUnderscores(w), base)) else None
  }

  /** `base36_to_int`: the base-36 value of `s`, or 0 when `int(s, 36)` fails. */
  function Base36ToInt(s: string): (n: int)
    ensures ParseInt(s, 36).None? ==> n == 0
    ensures ParseInt(s, 36).Some? ==> n == ParseInt(s, 36).value
  {
    ParseInt(s, 36).GetOr(0)
  }

  /** The upper-case digit character of value `d`. */
  function DigitChar(d: nat): (c: char)
    requires d < 36
    ensures DigitValue(c) == d
    ensures '0' <= c <= '9' || 'A' <= c <= 'Z'
  {
    if d < 10 then ('0' as int + d) as char else ('A' as int + d - 10) as char
  }

  /** `n` written in base 36 with upper-case digits and no leading zero. */
  function Format36(n: nat): (s: string)
    ensures s != []
    ensures forall i :: 0 <= i < |s| ==> DigitValue(s[i]) < 36
    ensures forall i :: 0 <= i < |s| ==> '0' <= s[i] <= '9' || 'A' <= s[i] <= 'Z'
    decreases n
  {
    if n < 36 then [DigitChar(n)] else Format36(n / 36) + [DigitChar(n % 36)]
  }

  lemma {:induction false} Format36Value(n: nat)
    ensures DigitsValue(Format36(n), 36) == n
    decreases n
  {
    if n >= 36 {
      var q, d := n / 36, n % 36;
      var s := Format36(n);
      assert s == Format36(q) + [DigitChar(d)];
      assert s[..|s| - 1] == Format36(q);
      Format36Value(q);
      assert DigitsValue(s, 36) == q * 36 + d;
    }
  }

  lemma {:induction false} NoUnderscores(w: string)
    requires '_' !in w
    ensures WithoutUnderscores(w) == w
  {
    if w != [] {
      NoUnderscores(w[1..]);
      assert w == [w[0]] + w[1..];
    }
  }

  /** A plain digit string: upper-case or decimal digits of `base`, nothing else. */
  predicate PlainDigits(s: string, base: nat) {
    s != [] && forall i :: 0 <= i < |s| ==> ('0' <= s[i] <= '9' || 'A' <= s[i] <= 'Z') && DigitValue(s[i]) < base
  }

  /** A plain digit string carries no `0x` prefix. */
  lemma PlainDigitsNoPrefix(s: string, base: nat)
    requires PlainDigits(s, base)
    ensures DropPrefix(s, base) == s
  {
    if base == 16 && |s| >= 2 {
      assert DigitValue(s[1]) < 16;
    }
  }

  /** A plain digit string is well formed and has no underscores to drop. */
  lemma PlainDigitsWellFormed(s: string, base: nat)
    requires PlainDigits(s, base)
    ensures WellFormedDigits(s, base)
    ensures WithoutUnderscores(s) == s
  {
    assert '_' !in s;
    NoUnderscores(s);
    NoUnderscoreNoDouble(s);
  }

  lemma PlainDigitsUnstripped(s: string, base: nat)
    requires PlainDigits(s, base)
    ensures Text.StripWith(s, IntSpace) == s
  {
    assert forall k :: 0 <= k < |s| ==> !IntSpace(s[k]);
  }

  lemma {:induction false} NoUnderscoreNoDouble(w: string)
    requires '_' !in w
    ensures NoDoubleUnderscore(w)
  {
    if |w| >= 2 {
      NoUnderscoreNoDouble(w[1..]);
    }
  }

  /** Plain digits, unsigned and unprefixed, read as their positional value. */
  lemma PlainDigitsRead(d: string, base: nat)
    requires 2 <= base <= 36 && PlainDigits(d, base)
    ensures ParseDigits(d, base) == Some(DigitsValue(d, base))
  {
    PlainDigitsNoPrefix(d, base);
    PlainDigitsWellFormed(d, base);
  }

  /** `int(s, base)` of a plain digit string is its positional value. */
  lemma ParsePlainDigits(s: string, base: nat)
    requires 2 <= base <= 36 && PlainDigits(s, base)
    ensures ParseInt(s, base) == Some(DigitsValue(s, base))
  {
    PlainDigitsUnstripped(s, base);
    PlainDigitsRead(s, base);
  }

  /** A sign in front of plain digits: `-` negates the value, `+` keeps it. */
  lemma SignedDigits(s: string, d: string, base: nat)
    requires 2 <= base <= 36 && PlainDigits(d, base)
    requires |s| >= 1 && (s[0] == '-' || s[0] == '+') && s[1..] == d
    ensures ParseInt(s, base) == Some(if s[0] == '-' then -(DigitsValue(d, base) as int) else DigitsValue(d, base))
  {
    DigitsAfter(s, d, base, 1);
    PlainDigitsRead(d, base);
  }

  /** Plain digits after `n` non-space characters: nothing is stripped. */
  lemma DigitsAfter(s: string, d: string, base: nat, n: nat)
    requires PlainDigits(d, base)
    requires n <= |s| && s[n..] == d && forall k :: 0 <= k < n ==> !IntSpace(s[k])
    ensures Text.StripWith(s, IntSpace) == s
  {
    forall k | n <= k < |s| ensures !IntSpace(s[k]) {
      assert s[k] == d[k - n];
    }
  }

  /** In base 16, the digits may follow a `0x` prefix. */
  lemma ParseHexPrefix(s: string, d: string)
    requires PlainDigits(d, 16)
    requires |s| >= 2 && s[0] == '0' && s[1] == 'x' && s[2..] == d
    ensures ParseInt(s, 16) == Some(DigitsValue(d, 16))
  {
    assert ParseDigits(s, 16) == Some(DigitsValue(d, 16)) by {
      assert d[0] != '_';
      HexPrefixDropped(s, d);
      PlainDigitsWellFormed(d, 16);
    }
    DigitsAfter(s, d, 16, 2);
    StrippedParse(s, 16);
    UnsignedParse(s, 16);
  }

  /** Text that `strip()` leaves alone is read as it stands. */
  lemma StrippedParse(s: string, base: nat)
    requires 2 <= base <= 36 && Text.StripWith(s, IntSpace) == s
    ensures ParseInt(s, base) == ParseSigned(s, base)
  {
  }

  /** Text without a sign is read as unsigned digits. */
  lemma UnsignedParse(t: string, base: nat)
    requires 2 <= base <= 36 && t != [] && t[0] != '-' && t[0] != '+'
    ensures ParseSigned(t, base) == ParseDigits(t, base)
  {
  }

  /** `DropPrefix` removes `0x` in front of digits. */
  lemma HexPrefixDropped(s: string, d: string)
    requires |s| >= 2 && s[0] == '0' && s[1] == 'x' && s[2..] == d
    requires d == [] || d[0] != '_'
    ensures DropPrefix(s, 16) == d
  {
  }

  /** `base36_to_int` reads back every number written in base 36. */
  lemma Base36RoundTrip(n: nat)
    ensures Base36ToInt(Format36(n)) == n
  {
    ParsePlainDigits(Format36(n), 36);
    Format36Value(n);
  }
}

=== FILE: playback.dfy ===
/** The bookkeeping of `Player.play`: the scan that triggers the notes that
    are due, the choke groups (a closed or pedal hi-hat stops an open one),
    the per-channel polyphony limit with voice stealing, and the seek keys.
    Mixer channels are opaque voice numbers; whether a voice is still
    sounding is an input set, and what the mixer is asked to do comes back
    as a list of actions. */
module Playback {
  import opened Wrappers
  import Sorting
  import Timing

  type TimedNote = Timing.TimedNote

  /** A mixer channel, as an opaque number. */
  type Voice = nat

  /** One playing instance of a channel: its voice and when it started. */
  datatype Instance = Instance(voice: Voice, startMs: real)

  /** What the mixer is asked to do. A sound is played on a voice whose
      volume is the sound-effect volume scaled by the WAV's percentage. */
  datatype Action =
    | FadeOut(voice: Voice)
    | Play(wav: string, seVolume: real, percent: int)
  {
    /** The volume the voice is set to before the sound starts. */
    function Volume(): (r: real)
      requires Play?
      ensures 0.0 <= seVolume && 0 <= percent <= 100 ==> 0.0 <= r <= seVolume
      ensures percent == 100 ==> r == seVolume
    {
      seVolume * (percent as real / 100.0)
    }
  }

  /** `POLYPHONY_LIMIT`: instances of one channel that may sound at once. */
  const PolyphonyLimit: nat := 4

  /** `CHOKE_MAP`: the channels each choker channel stops. */
  const ChokeMap: map<string, seq<string>> := map["11" := ["18"], "1B" := ["18"]]

  /** `CHOKEABLE_CHANNELS`: every channel some choker stops. */
  function Chokeable(): (r: set<string>)
    ensures r == {"18"}
  {
    var r := set c, x | c in ChokeMap && x in ChokeMap[c] :: x;
    assert "18" in ChokeMap["11"];
    r
  }

  /** No choker channel can itself be choked. */
  lemma ChokersNotChokeable(ch: string)
    requires ch in ChokeMap
    ensures ch !in Chokeable()
  {
  }

  /** The two tracking maps: `active_poly_sounds` and `active_choke_sounds`. */
  datatype Tracking = Tracking(poly: map<string, seq<Instance>>, choke: map<string, Voice>)

  /** What `play()` keeps true of the tracking maps: no channel tracks more
      instances than the limit, and only chokeable channels are recorded
      for choking. */
  predicate Bounded(t: Tracking) {
    && (forall c :: c in t.poly ==> |t.poly[c]| <= PolyphonyLimit)
    && (forall c :: c in t.choke ==> c in Chokeable())
  }

  /** `active_poly_sounds.get(channel, [])`. */
  function Instances(t: Tracking, ch: string): seq<Instance> {
    if ch in t.poly then t.poly[ch] else []
  }

  /** The instances whose voice is still sounding, in their order: the
      `get_busy()` clean-up. */
  function Live(s: seq<Instance>, busy: set<Voice>): (r: seq<Instance>)
    ensures |r| <= |s|
    ensures forall x :: x in r <==> x in s && x.voice in busy
  {
    if s == [] then []
    else
      assert s == [s[0]] + s[1..];
      (if s[0].voice in busy then [s[0]] else []) + Live(s[1..], busy)
  }

  /** Instances ordered by start time: the key of the voice-stealing sort. */
  predicate StartLe(a: Instance, b: Instance) {
    a.startMs <= b.startMs
  }

  lemma StartLePreorder()
    ensures Sorting.TotalPreorder(StartLe)
  {
  }

  /** The instance stolen when the limit is reached: the first after a
      stable sort by start time. */
  function Evicted(live: seq<Instance>): Option<Instance> {
    if |live| >= PolyphonyLimit then Some(Sorting.SortBy(live, StartLe)[0]) else None
  }

  /** The instances that stay after stealing. */
  function Survivors(live: seq<Instance>): seq<Instance> {
    if |live| >= PolyphonyLimit then Sorting.SortBy(live, StartLe)[1..] else live
  }

  /** The instance a successful `play()` adds. */
  function Started(started: Option<Voice>, now: real): seq<Instance> {
    if started.Some? then [Instance(started.value, now)] else []
  }

  /** A channel's instance list after a trigger. */
  function Kept(s: seq<Instance>, busy: set<Voice>, now: real, started: Option<Voice>): seq<Instance> {
    Survivors(Live(s, busy)) + Started(started, now)
  }

  /** The keys `victims` names. */
  function Victims(victims: seq<string>): set<string> {
    set v | v in victims
  }

  /** The fade-outs the choke loop asks for over the first `n` victims:
      a victim still tracked, and not already removed earlier in the loop,
      is faded when its voice is sounding. */
  function ChokeFades(choke: map<string, Voice>, victims: seq<string>, busy: set<Voice>, n: nat): seq<Action>
    requires n <= |victims|
  {
    if n == 0 then []
    else
      var v := victims[n - 1];
      ChokeFades(choke, victims, busy, n - 1)
      + (if v in choke && v !in victims[..n - 1] && choke[v] in busy then [FadeOut(choke[v])] else [])
  }

  /** `wav_volumes.get(wav, 100)`. */
  function VolumePercent(wavVolumes: map<string, int>, wav: string): int {
    if wav in wavVolumes then wavVolumes[wav] else 100
  }

  /** The tracking maps after a due note is triggered. A note whose WAV
      was not loaded changes nothing. */
  function Hit(t: Tracking, note: TimedNote, now: real, busy: set<Voice>, started: Option<Voice>,
               sounds: set<string>): Tracking
  {
    if note.wav !in sounds then t
    else
      var ch := note.channel;
      var choke := if ch in ChokeMap then t.choke - Victims(ChokeMap[ch]) else t.choke;
      var kept := Kept(Instances(t, ch), busy, now, started);
      Tracking(t.poly[ch := kept],
               if started.Some? && ch in Chokeable() then choke[ch := started.value] else choke)
  }

  /** A trigger rewrites only the list of the note's own channel, with the
      instances `Kept` gives; a note whose WAV was not loaded changes
      nothing. */
  lemma HitPoly(t: Tracking, note: TimedNote, now: real, busy: set<Voice>, started: Option<Voice>,
                sounds: set<string>)
    ensures note.wav !in sounds ==> Hit(t, note, now, busy, started, sounds) == t
    ensures note.wav in sounds ==>
      Hit(t, note, now, busy, started, sounds).poly
      == t.poly[note.channel := Kept(Instances(t, note.channel), busy, now, started)]
    ensures forall c :: c != note.channel && c in t.poly ==>
      c in Hit(t, note, now, busy, started, sounds).poly
      && Hit(t, note, now, busy, started, sounds).poly[c] == t.poly[c]
  {
  }

  /** What the mixer is asked to do for a due note: the choke fade-outs,
      the stolen voice's fade-out, then the new sound at the SE volume
      scaled by the WAV's volume percentage. */
  function HitActions(t: Tracking, note: TimedNote, busy: set<Voice>, seVolume: real,
                      wavVolumes: map<string, int>, sounds: set<string>): seq<Action>
  {
    if note.wav !in sounds then []
    else
      var ch := note.channel;
      var fades := if ch in ChokeMap then ChokeFades(t.choke, ChokeMap[ch], busy, |ChokeMap[ch]|) else [];
      var evicted := Evicted(Live(Instances(t, ch), busy));
      fades
      + (if evicted.Some? then [FadeOut(evicted.value.voice)] else [])
      + [Play(note.wav, seVolume, VolumePercent(wavVolumes, note.wav))]
  }

  /** A loaded note's actions, group by group. */
  lemma HitActionsInOrder(t: Tracking, note: TimedNote, busy: set<Voice>, seVolume: real,
                          wavVolumes: map<string, int>, sounds: set<string>)
    requires note.wav in sounds
    ensures var ch := note.channel;
      var live := Live(Instances(t, ch), busy);
      HitActions(t, note, busy, seVolume, wavVolumes, sounds)
      == (if ch in ChokeMap then ChokeFades(t.choke, ChokeMap[ch], busy, |ChokeMap[ch]|) else [])
         + (if Evicted(live).Some? then [FadeOut(Evicted(live).value.voice)] else [])
         + [Play(note.wav, seVolume, VolumePercent(wavVolumes, note.wav))]
  {
  }

  /** The voices the choke map holds for the channels `ch` chokes. */
  function ChokedVoices(choke: map<string, Voice>, ch: string): set<Voice> {
    if ch in ChokeMap then set v | v in ChokeMap[ch] && v in choke :: choke[v] else {}
  }

  /** The voices a channel tracks. */
  function TrackedVoices(t: Tracking, ch: string): set<Voice> {
    set x | x in Instances(t, ch) :: x.voice
  }

  /** Each fade-out of the choke loop stops a sounding voice recorded for
      one of the victims, and there is at most one per victim. */
  lemma {:induction false} ChokeFadesShape(choke: map<string, Voice>, victims: seq<string>, busy: set<Voice>, n: nat)
    requires n <= |victims|
    ensures var f := ChokeFades(choke, victims, busy, n);
      && |f| <= n
      && forall i :: 0 <= i < |f| ==>
           f[i].FadeOut? && f[i].voice in busy && exists v :: v in victims && v in choke && choke[v] == f[i].voice
  {
    if n > 0 {
      ChokeFadesShape(choke, victims, busy, n - 1);
      var v := victims[n - 1];
      var f0, f := ChokeFades(choke, victims, busy, n - 1), ChokeFades(choke, victims, busy, n);
      forall i | 0 <= i < |f|
        ensures f[i].FadeOut? && f[i].voice in busy && exists v :: v in victims && v in choke && choke[v] == f[i].voice
      {
        if i < |f0| {
          assert f[i] == f0[i];
        } else {
          assert f[i] == FadeOut(choke[v]) && v in victims;
        }
      }
    }
  }

  /** What a note asks of the mixer: nothing when its WAV is not loaded;
      otherwise its sound at the SE volume and the WAV's percentage comes
      last, and every action before it fades out a sounding voice, either
      one the choke map holds for a channel this one chokes or one this
      channel tracks (the stolen instance), at most one per choked channel
      plus one. */
  lemma HitActionsShape(t: Tracking, note: TimedNote, busy: set<Voice>, seVolume: real,
                        wavVolumes: map<string, int>, sounds: set<string>)
    ensures note.wav !in sounds ==> HitActions(t, note, busy, seVolume, wavVolumes, sounds) == []
    ensures note.wav in sounds ==>
      var a, ch := HitActions(t, note, busy, seVolume, wavVolumes, sounds), note.channel;
      && a != []
      && a[|a| - 1] == Play(note.wav, seVolume, VolumePercent(wavVolumes, note.wav))
      && |a| <= (if ch in ChokeMap then |ChokeMap[ch]| else 0) + 2
      && forall i :: 0 <= i < |a| - 1 ==>
           a[i].FadeOut? && a[i].voice in busy && a[i].voice in ChokedVoices(t.choke, ch) + TrackedVoices(t, ch)
  {
    if note.wav in sounds {
      var ch := note.channel;
      HitActionsInOrder(t, note, busy, seVolume, wavVolumes, sounds);
      var fades := if ch in ChokeMap then ChokeFades(t.choke, ChokeMap[ch], busy, |ChokeMap[ch]|) else [];
      if ch in ChokeMap {
        ChokeFadesShape(t.choke, ChokeMap[ch], busy, |ChokeMap[ch]|);
      }
      var live := Live(Instances(t, ch), busy);
      var stolen := if Evicted(live).Some? then [FadeOut(Evicted(live).value.voice)] else [];
      if Evicted(live).Some? {
        EvictOldest(live);
        assert Evicted(live).value in Instances(t, ch);
      }
      var a := HitActions(t, note, busy, seVolume, wavVolumes, sounds);
      assert a == fades + stolen + [Play(note.wav, seVolume, VolumePercent(wavVolumes, note.wav))];
      forall i | 0 <= i < |a| - 1
        ensures a[i].FadeOut? && a[i].voice in busy && a[i].voice in ChokedVoices(t.choke, ch) + TrackedVoices(t, ch)
      {
        if i < |fades| {
          assert a[i] == fades[i];
        } else {
          assert a[i] == stolen[0];
        }
      }
    }
  }

  /** The tracking maps after the notes `lo` up to `hi` are triggered at
      `now`; note `k` gets the voice `voiceFor(k)`. */
  function HitsFrom(t: Tracking, notes: seq<TimedNote>, lo: nat, hi: nat, now: real, busy: set<Voice>,
                    voiceFor: nat -> Option<Voice>, sounds: set<string>): Tracking
    requires lo <= hi <= |notes|
    decreases hi
  {
    if hi == lo then t
    else Hit(HitsFrom(t, notes, lo, hi - 1, now, busy, voiceFor, sounds), notes[hi - 1], now, busy,
             voiceFor(hi - 1), sounds)
  }

  /** The actions of triggering the notes `lo` up to `hi`, in order. */
  function ActionsFrom(t: Tracking, notes: seq<TimedNote>, lo: nat, hi: nat, now: real, busy: set<Voice>,
                       voiceFor: nat -> Option<Voice>, sounds: set<string>, seVolume: real,
                       wavVolumes: map<string, int>): seq<Action>
    requires lo <= hi <= |notes|
    decreases hi
  {
    if hi == lo then []
    else
      ActionsFrom(t, notes, lo, hi - 1, now, busy, voiceFor, sounds, seVolume, wavVolumes)
      + HitActions(HitsFrom(t, notes, lo, hi - 1, now, busy, voiceFor, sounds), notes[hi - 1], busy,
                   seVolume, wavVolumes, sounds)
  }

  /** Voice stealing happens exactly at the limit, and takes an instance
      with the earliest start time among those still sounding. */
  lemma EvictOldest(live: seq<Instance>)
    ensures Evicted(live).Some? <==> |live| >= PolyphonyLimit
    ensures Evicted(live).Some? ==>
      && Evicted(live).value in live
      && forall y :: y in live ==> Evicted(live).value.startMs <= y.startMs
  {
    if |live| >= PolyphonyLimit {
      StartLePreorder();
      Sorting.SortByFirstIsLeast(live, StartLe);
    }
  }

  /** Stealing loses the evicted instance and nothing else. */
  lemma SurvivorsAccount(live: seq<Instance>)
    ensures multiset(Survivors(live)) + (if Evicted(live).Some? then multiset{Evicted(live).value} else multiset{})
         == multiset(live)
  {
    if |live| >= PolyphonyLimit {
      var s := Sorting.SortBy(live, StartLe);
      assert s == [s[0]] + s[1..];
    }
  }

  /** A channel's list after a trigger: the sounding instances less the
      stolen one, plus the new instance when `play()` gave a voice. */
  lemma KeptContents(s: seq<Instance>, busy: set<Voice>, now: real, started: Option<Voice>)
    ensures var live := Live(s, busy);
      var ev := Evicted(live);
      multiset(Kept(s, busy, now, started)) + (if ev.Some? then multiset{ev.value} else multiset{})
      == multiset(live) + multiset(Started(started, now))
  {
    SurvivorsAccount(Live(s, busy));
  }

  /** The polyphony limit holds after a trigger when it held before. */
  lemma PolyphonyBound(s: seq<Instance>, busy: set<Voice>, now: real, started: Option<Voice>)
    requires |s| <= PolyphonyLimit
    ensures |Kept(s, busy, now, started)| <= PolyphonyLimit
  {
  }

  /** A choker removes exactly its choked channels from the choke map and
      leaves every other entry as it was; a channel outside the choke
      groups touches no entry but its own. */
  lemma ChokeExact(t: Tracking, note: TimedNote, now: real, busy: set<Voice>, started: Option<Voice>,
                   sounds: set<string>)
    requires note.wav in sounds
    ensures var r := Hit(t, note, now, busy, started, sounds).choke;
      note.channel in ChokeMap ==>
        forall k :: (k in r <==> k in t.choke && k !in ChokeMap[note.channel]) && (k in r ==> r[k] == t.choke[k])
    ensures var r := Hit(t, note, now, busy, started, sounds).choke;
      forall k :: k != note.channel ==>
        && (k in r <==> k in t.choke && (note.channel !in ChokeMap || k !in ChokeMap[note.channel]))
        && (k in r ==> r[k] == t.choke[k])
  {
    if note.channel in ChokeMap {
      ChokersNotChokeable(note.channel);
    }
  }

  /** A trigger keeps the tracking maps bounded. */
  lemma HitBounded(t: Tracking, note: TimedNote, now: real, busy: set<Voice>, started: Option<Voice>,
                   sounds: set<string>)
    requires Bounded(t)
    ensures Bounded(Hit(t, note, now, busy, started, sounds))
  {
    if note.wav in sounds {
      var s := Instances(t, note.channel);
      PolyphonyBound(s, busy, now, started);
    }
  }

  /** A whole scan keeps the tracking maps bounded. */
  lemma {:induction false} HitsFromBounded(t: Tracking, notes: seq<TimedNote>, lo: nat, hi: nat, now: real,
                                           busy: set<Voice>, voiceFor: nat -> Option<Voice>, sounds: set<string>)
    requires lo <= hi <= |notes| && Bounded(t)
    ensures Bounded(HitsFrom(t, notes, lo, hi, now, busy, voiceFor, sounds))
    decreases hi
  {
    if hi > lo {
      HitsFromBounded(t, notes, lo, hi - 1, now, busy, voiceFor, sounds);
      HitBounded(HitsFrom(t, notes, lo, hi - 1, now, busy, voiceFor, sounds), notes[hi - 1], now, busy,
                 voiceFor(hi - 1), sounds);
    }
  }

  /** `song_duration_ms`: the last note's time plus three seconds, or 0
      without notes. */
  function SongDuration(notes: seq<TimedNote>): (r: real)
    ensures notes != [] && notes[|notes| - 1].ms >= 0.0 ==> r >= 3000.0
    ensures notes == [] ==> r == 0.0
  {
    if notes == [] then 0.0 else notes[|notes| - 1].ms + 3000.0
  }

  /** With the notes in time order, every note lies at least three seconds
      before the end of the song. */
  lemma SongCoversNotes(notes: seq<TimedNote>)
    requires forall i, j :: 0 <= i < j < |notes| ==> notes[i].ms <= notes[j].ms
    ensures forall i :: 0 <= i < |notes| ==> notes[i].ms + 3000.0 <= SongDuration(notes)
  {
  }

  /** The clamp of a seek target: not before 0, and not after the song's
      end when the song has a positive length. */
  function Clamp(t: real, durationMs: real): (r: real)
    ensures 0.0 <= r
    ensures durationMs > 0.0 ==> r <= durationMs
    ensures (0.0 <= t && (durationMs <= 0.0 || t <= durationMs)) ==> r == t
    ensures t < 0.0 ==> r == 0.0
    ensures durationMs > 0.0 && t > durationMs ==> r == durationMs
  {
    var r := if t < 0.0 then 0.0 else t;
    if durationMs > 0.0 && durationMs < r then durationMs else r
  }

  /** `max(0, x)`. */
  function Max0(x: real): (r: real)
    ensures r >= 0.0 && r >= x && (r == x || r == 0.0)
  {
    if x < 0.0 then 0.0 else x
  }

  /** The seek loop: the first index whose note is at or after `t`, or the
      number of notes when there is none. */
  method FirstAtOrAfter(notes: seq<TimedNote>, t: real) returns (index: nat)
    ensures index <= |notes|
    ensures forall k :: 0 <= k < index ==> notes[k].ms < t
    ensures index < |notes| ==> notes[index].ms >= t
  {
    index := 0;
    while index < |notes|
      invariant index <= |notes|
      invariant forall k :: 0 <= k < index ==> notes[k].ms < t
    {
      if notes[index].ms >= t {
        return;
      }
      index := index + 1;
    }
  }

  /** `min(1.0, v + 0.1)`: one step up, never above full volume. */
  function VolumeUp(v: real): (r: real)
    ensures r <= 1.0 && r <= v + 0.1
    ensures v <= 0.9 ==> r == v + 0.1
    ensures v <= 1.0 ==> v <= r
    ensures v + 0.1 >= 1.0 ==> r == 1.0
  {
    if v + 0.1 < 1.0 then v + 0.1 else 1.0
  }

  /** `max(0.0, v - 0.1)`: one step down, never below silence. */
  function VolumeDown(v: real): (r: real)
    ensures r >= 0.0 && r >= v - 0.1
    ensures v >= 0.1 ==> r == v - 0.1
    ensures v >= 0.0 ==> r <= v
    ensures v - 0.1 <= 0.0 ==> r == 0.0
  {
    if v - 0.1 > 0.0 then v - 0.1 else 0.0
  }

  /** The volume after a sequence of key presses, `true` for a step up. */
  function Steps(v: real, ups: seq<bool>): real {
    if ups == [] then v
    else
      var p := Steps(v, ups[..|ups| - 1]);
      if ups[|ups| - 1] then VolumeUp(p) else VolumeDown(p)
  }

  /** A volume stays in [0, 1] under any number of steps either way. */
  lemma {:induction false} VolumeStepsInRange(v: real, ups: seq<bool>)
    requires 0.0 <= v <= 1.0
    ensures 0.0 <= Steps(v, ups) <= 1.0
  {
    if ups != [] {
      VolumeStepsInRange(v, ups[..|ups| - 1]);
    }
  }

  /** The keys the playback loop reacts to. */
  datatype Key = Left | Right | Up | Down | PageUp | PageDown | Escape | OtherKey

  /** `JUMP_AMOUNT_S * 1000`. */
  const JumpMs: real := 5000.0

  /** The seek target of a key press as the loop computes it: `-1` marks
      "no seek", so a Left press that lands exactly on -1 ms is lost. */
  function SeekTargetAsWritten(key: Key, currentMs: real): (r: Option<real>)
    ensures r.Some? ==> (key == Left || key == Right) && r.value != -1.0
    ensures key == Right && currentMs + JumpMs != -1.0 ==> r == Some(currentMs + JumpMs)
    ensures key == Left && currentMs - JumpMs != -1.0 ==> r == Some(currentMs - JumpMs)
  {
    var newTime := if key == Right then currentMs + JumpMs else if key == Left then currentMs - JumpMs else -1.0;
    if newTime != -1.0 then Some(newTime) else None
  }

  /** The seek target of a key press: five seconds forward or back for the
      arrow keys, no seek for any other key. */
  function SeekTarget(key: Key, currentMs: real): (r: Option<real>)
    ensures r.Some? <==> key == Left || key == Right
    ensures key == Right ==> r == Some(currentMs + JumpMs)
    ensures key == Left ==> r == Some(currentMs - JumpMs)
  {
    if key == Right then Some(currentMs + JumpMs)
    else if key == Left then Some(currentMs - JumpMs)
    else None
  }

  /** Left at 4999 ms: the loop as written does not seek, where the
      intended seek lands on 0 after the clamp. */
  lemma SentinelSwallowsSeek(durationMs: real)
    ensures SeekTargetAsWritten(Left, 4999.0) == None
    ensures SeekTarget(Left, 4999.0) == Some(-1.0) && Clamp(-1.0, durationMs) == 0.0
  {
  }

  /** The two agree except where the computed target is exactly -1. */
  lemma SeekTargetsAgree(key: Key, currentMs: real)
    ensures SeekTargetAsWritten(key, currentMs) != SeekTarget(key, currentMs)
        <==> SeekTarget(key, currentMs) == Some(-1.0)
  {
  }

  /** The clean-up and voice stealing for one channel: the instances still
      sounding, less the oldest one when the limit is reached, and the
      fade-out of that one. */
  method Steal(instances: seq<Instance>, busy: set<Voice>) returns (survivors: seq<Instance>, stolen: seq<Action>)
    ensures survivors == Survivors(Live(instances, busy))
    ensures stolen == if Evicted(Live(instances, busy)).Some?
                      then [FadeOut(Evicted(Live(instances, busy)).value.voice)] else []
    ensures |instances| <= PolyphonyLimit ==> |survivors| < PolyphonyLimit
  {
    survivors := Live(instances, busy);
    stolen := [];
    if |survivors| >= PolyphonyLimit {
      survivors := Sorting.SortBy(survivors, StartLe);
      var oldest := survivors[0];
      survivors := survivors[1..];
      stolen := [FadeOut(oldest.voice)];
    }
  }

  /** The state `play()` keeps while the song runs. */
  class Player {
    /** `notes_to_play`: the chart's timed notes. */
    const notes: seq<TimedNote>
    /** `song_duration_ms`. */
    const songDurationMs: real
    /** The WAV IDs whose sounds loaded. */
    const sounds: set<string>
    /** `dtx.wav_volumes`. */
    const wavVolumes: map<string, int>
    /** `dtx.bgm_start_time_ms`. */
    const bgmStartMs: real
    /** `se_volume`. */
    var seVolume: real
    /** `bgm_volume`. */
    var bgmVolume: real
    /** `note_index`: the next note not yet triggered. */
    var noteIndex: nat
    /** `time_offset_ms`: the chart time at which the music was last (re)started. */
    var timeOffsetMs: real
    /** `active_poly_sounds`. */
    var activePoly: map<string, seq<Instance>>
    /** `active_choke_sounds`. */
    var activeChoke: map<string, Voice>

    /** The tracking maps as one value. */
    function Tracked(): Tracking
      reads this
    {
      Tracking(activePoly, activeChoke)
    }

    /** The invariant `play()` keeps. */
    predicate Valid()
      reads this
    {
      noteIndex <= |notes| && Bounded(Tracked())
    }

    /** The state at the start of `play()`. */
    constructor (timedNotes: seq<TimedNote>, bgmStart: real, loaded: set<string>, volumes: map<string, int>)
      ensures notes == timedNotes && sounds == loaded && wavVolumes == volumes && bgmStartMs == bgmStart
      ensures songDurationMs == SongDuration(timedNotes)
      ensures noteIndex == 0 && timeOffsetMs == bgmStart && seVolume == 1.0 && bgmVolume == 0.7
      ensures activePoly == map[] && activeChoke == map[]
      ensures Valid()
    {
      notes := timedNotes;
      songDurationMs := if timedNotes == [] then 0.0 else timedNotes[|timedNotes| - 1].ms + 3000.0;
      sounds := loaded;
      wavVolumes := volumes;
      bgmStartMs := bgmStart;
      seVolume := 1.0;
      bgmVolume := 0.7;
      noteIndex := 0;
      timeOffsetMs := bgmStart;
      activePoly := map[];
      activeChoke := map[];
    }

    /** The choke step of a due note on channel `ch`: each channel `ch`
      chokes is faded when its voice is sounding and dropped from the
      choke map. */
    method ChokeFor(ch: string, busy: set<Voice>) returns (fades: seq<Action>)
      modifies this`activeChoke
      ensures activeChoke == if ch in ChokeMap then old(activeChoke) - Victims(ChokeMap[ch]) else old(activeChoke)
      ensures fades == if ch in ChokeMap then ChokeFades(old(activeChoke), ChokeMap[ch], busy, |ChokeMap[ch]|) else []
    {
      fades := [];
      if ch in ChokeMap {
        var victims := ChokeMap[ch];
        for i := 0 to |victims|
          invariant activeChoke == old(activeChoke) - Victims(victims[..i])
          invariant fades == ChokeFades(old(activeChoke), victims, busy, i)
        {
          var v := victims[i];
          assert victims[..i + 1] == victims[..i] + [v];
          if v in activeChoke {
            var voice := activeChoke[v];
            if voice in busy {
              fades := fades + [FadeOut(voice)];
            }
            activeChoke := activeChoke - {v};
          }
        }
        assert victims[..|victims|] == victims;
      }
    }

    /** The end of a trigger: the channel keeps `playing` plus the new
      instance when `play()` gave a voice, which a chokeable channel also
      records for choking. */
    method Record(ch: string, playing: seq<Instance>, now: real, started: Option<Voice>)
      modifies this`activePoly, this`activeChoke
      ensures activePoly == old(activePoly)[ch := playing + Started(started, now)]
      ensures activeChoke == if started.Some? && ch in Chokeable() then old(activeChoke)[ch := started.value]
                             else old(activeChoke)
    {
      var kept := playing;
      match started {
        case Some(voice) =>
          kept := kept + [Instance(voice, now)];
          if ch in Chokeable() {
            activeChoke := activeChoke[ch := voice];
          }
        case None =>
          assert kept + [] == kept;
      }
      activePoly := activePoly[ch := kept];
    }

    /** One due note: the choke step, the clean-up of finished instances,
      voice stealing at the limit, then the new sound; `started` is the
      voice `play()` gave, or `None` when the mixer had none free. */
    method Trigger(note: TimedNote, now: real, busy: set<Voice>, started: Option<Voice>)
      returns (actions: seq<Action>)
      modifies this`activePoly, this`activeChoke
      ensures Tracked() == Hit(old(Tracked()), note, now, busy, started, sounds)
      ensures actions == HitActions(old(Tracked()), note, busy, seVolume, wavVolumes, sounds)
    {
      actions := [];
      if note.wav in sounds {
        var ch := note.channel;
        actions := ChokeFor(ch, busy);
        var current := if ch in activePoly then activePoly[ch] else [];
        var playing, stolen := Steal(current, busy);
        actions := actions + stolen;
        var percent := VolumePercent(wavVolumes, note.wav);
        actions := actions + [Play(note.wav, seVolume, percent)];
        HitActionsInOrder(old(Tracked()), note, busy, seVolume, wavVolumes, sounds);
        Record(ch, playing, now, started);
      } else {
        assert HitActions(old(Tracked()), note, busy, seVolume, wavVolumes, sounds) == [];
      }
    }

    /** The due-note scan: every note from `noteIndex` whose time is at
      most `now` is triggered in order, and `noteIndex` stops at the first
      later note. Note `k` gets the voice `voiceFor(k)`. */
    method AdvanceDue(now: real, busy: set<Voice>, voiceFor: nat -> Option<Voice>) returns (actions: seq<Action>)
      requires Valid()
      modifies this`noteIndex, this`activePoly, this`activeChoke
      ensures Valid()
      ensures old(noteIndex) <= noteIndex <= |notes|
      ensures forall k :: old(noteIndex) <= k < noteIndex ==> notes[k].ms <= now
      ensures noteIndex < |notes| ==> notes[noteIndex].ms > now
      ensures Tracked() == HitsFrom(old(Tracked()), notes, old(noteIndex), noteIndex, now, busy, voiceFor, sounds)
      ensures actions == ActionsFrom(old(Tracked()), notes, old(noteIndex), noteIndex, now, busy, voiceFor,
                                     sounds, seVolume, wavVolumes)
    {
      actions := [];
      ghost var t0, lo := Tracked(), noteIndex;
      while noteIndex < |notes| && notes[noteIndex].ms <= now
        invariant lo <= noteIndex <= |notes|
        invariant forall k :: lo <= k < noteIndex ==> notes[k].ms <= now
        invariant Tracked() == HitsFrom(t0, notes, lo, noteIndex, now, busy, voiceFor, sounds)
        invariant actions == ActionsFrom(t0, notes, lo, noteIndex, now, busy, voiceFor, sounds, seVolume, wavVolumes)
        decreases |notes| - noteIndex
      {
        var a := Trigger(notes[noteIndex], now, busy, voiceFor(noteIndex));
        actions := actions + a;
        noteIndex := noteIndex + 1;
      }
      HitsFromBounded(t0, notes, lo, noteIndex, now, busy, voiceFor, sounds);
    }

    /** A seek to `newTimeMs`: the target is clamped to the song, the music
      restarts there when it drives the clock, `noteIndex` moves to the
      first note at or after the target, and both tracking maps are
      emptied. `musicStartS` is where the music restarts, in seconds. */
    method Seek(newTimeMs: real, audioDriven: bool) returns (musicStartS: Option<real>)
      modifies this`noteIndex, this`activePoly, this`activeChoke, this`timeOffsetMs
      ensures var t := Clamp(newTimeMs, songDurationMs);
        && noteIndex <= |notes|
        && (forall k :: 0 <= k < noteIndex ==> notes[k].ms < t)
        && (noteIndex < |notes| ==> notes[noteIndex].ms >= t)
        && timeOffsetMs == (if audioDriven then t else old(timeOffsetMs))
        && musicStartS == (if audioDriven then Some(Max0((t - bgmStartMs) / 1000.0)) else None)
      ensures activePoly == map[] && activeChoke == map[]
      ensures Valid()
    {
      var t := if newTimeMs < 0.0 then 0.0 else newTimeMs;
      if songDurationMs > 0.0 && songDurationMs < t {
        t := songDurationMs;
      }
      musicStartS := None;
      if audioDriven {
        timeOffsetMs := t;
        var startS := (t - bgmStartMs) / 1000.0;
        musicStartS := Some(if startS < 0.0 then 0.0 else startS);
      }
      noteIndex := FirstAtOrAfter(notes, t);
      activePoly := map[];
      activeChoke := map[];
    }

    /** A key press while playing: Escape ends the loop, Up/Down and
      PageUp/PageDown step the BGM and SE volumes by a tenth within
      [0, 1], and the arrow keys seek five seconds from `currentMs`; any
      other key leaves the playback state alone. `bgmVolumeSet` is the new
      BGM volume for the music player, when one of its keys was pressed. */
    method PressKey(key: Key, currentMs: real, audioDriven: bool)
      returns (running: bool, bgmVolumeSet: Option<real>, musicStartS: Option<real>)
      modifies this`noteIndex, this`activePoly, this`activeChoke, this`timeOffsetMs, this`seVolume, this`bgmVolume
      ensures running <==> key != Escape
      ensures bgmVolume == (if key == Up then VolumeUp(old(bgmVolume))
                            else if key == Down then VolumeDown(old(bgmVolume)) else old(bgmVolume))
      ensures bgmVolumeSet == (if key == Up || key == Down then Some(bgmVolume) else None)
      ensures seVolume == (if key == PageUp then VolumeUp(old(seVolume))
                           else if key == PageDown then VolumeDown(old(seVolume)) else old(seVolume))
      ensures SeekTarget(key, currentMs).None? ==>
        && noteIndex == old(noteIndex) && Tracked() == old(Tracked()) && timeOffsetMs == old(timeOffsetMs)
        && musicStartS == None
      ensures SeekTarget(key, currentMs).Some? ==>
        && activePoly == map[] && activeChoke == map[] && Valid()
        && var t := Clamp(SeekTarget(key, currentMs).value, songDurationMs);
          && (forall k :: 0 <= k < noteIndex ==> notes[k].ms < t)
          && (noteIndex < |notes| ==> notes[noteIndex].ms >= t)
          && timeOffsetMs == (if audioDriven then t else old(timeOffsetMs))
          && musicStartS == (if audioDriven then Some(Max0((t - bgmStartMs) / 1000.0)) else None)
    {
      running := key != Escape;
      bgmVolumeSet := None;
      if key == Up {
        bgmVolume := VolumeUp(bgmVolume);
        bgmVolumeSet := Some(bgmVolume);
      } else if key == Down {
        bgmVolume := VolumeDown(bgmVolume);
        bgmVolumeSet := Some(bgmVolume);
      } else if key == PageUp {
        seVolume := VolumeUp(seVolume);
      } else if key == PageDown {
        seVolume := VolumeDown(seVolume);
      }
      musicStartS := None;
      match SeekTarget(key, currentMs) {
        case Some(target) => musicStartS := Seek(target, audioDriven);
        case None =>
      }
    }
  }
}

=== FILE: sorting.dfy ===
/** Python's `list.sort()`: a stable sort under a total preorder. The
    chart's events are sorted by beat, a channel's playing instances by
    start time and the finished notes as `(ms, channel, wav)` tuples. The
    sort is written as an insertion sort; what is proved about it (sorted,
    a permutation, stable) is what Python promises of `list.sort()`. */
module Sorting {

  /** `le` orders every pair and is transitive. */
  ghost predicate TotalPreorder<T(!new)>(le: (T, T) -> bool) {
    && (forall a, b :: le(a, b) || le(b, a))
    && (forall a, b, c :: le(a, b) && le(b, c) ==> le(a, c))
  }

  /** Every element is `le` every later one. */
  predicate Sorted<T>(s: seq<T>, le: (T, T) -> bool) {
    forall i, j :: 0 <= i < j < |s| ==> le(s[i], s[j])
  }

  /** `x` placed into `s` after every element that is `le` it. */
  function Insert<T>(x: T, s: seq<T>, le: (T, T) -> bool): (r: seq<T>)
    ensures |r| == |s| + 1
    ensures multiset(r) == multiset(s) + multiset{x}
  {
    if s == [] then [x]
    else if le(s[0], x) then
      assert s == [s[0]] + s[1..];
      [s[0]] + Insert(x, s[1..], le)
    else [x] + s
  }

  /** `s` sorted by `le`, earlier elements first among equals: the result
      of Python's `s.sort()` with that ordering. Same elements, same count. */
  function SortBy<T>(s: seq<T>, le: (T, T) -> bool): (r: seq<T>)
    ensures |r| == |s|
    ensures multiset(r) == multiset(s)
  {
    if s == [] then []
    else
      assert s == s[..|s| - 1] + [s[|s| - 1]];
      Insert(s[|s| - 1], SortBy(s[..|s| - 1], le), le)
  }

  lemma {:induction false} InsertSorted<T(!new)>(x: T, s: seq<T>, le: (T, T) -> bool)
    requires TotalPreorder(le) && Sorted(s, le)
    ensures Sorted(Insert(x, s, le), le)
  {
    if s != [] && le(s[0], x) {
      var rest := Insert(x, s[1..], le);
      InsertSorted(x, s[1..], le);
      assert forall z :: z in multiset(rest) ==> z == x || z in s[1..];
      forall j | 0 <= j < |rest|
        ensures le(s[0], rest[j])
      {
        assert rest[j] in multiset(rest);
      }
    }
  }

  /** The sorted list is in order. */
  lemma {:induction false} SortBySorted<T(!new)>(s: seq<T>, le: (T, T) -> bool)
    requires TotalPreorder(le)
    ensures Sorted(SortBy(s, le), le)
  {
    if s != [] {
      SortBySorted(s[..|s| - 1], le);
      InsertSorted(s[|s| - 1], SortBy(s[..|s| - 1], le), le);
    }
  }

  /** The first element of the sorted list belongs to the list and is `le`
      every element of it: the one `list.pop(0)` removes after the sort. */
  lemma SortByFirstIsLeast<T(!new)>(s: seq<T>, le: (T, T) -> bool)
    requires TotalPreorder(le) && s != []
    ensures SortBy(s, le)[0] in s
    ensures forall z :: z in s ==> le(SortBy(s, le)[0], z)
  {
    var r := SortBy(s, le);
    SortBySorted(s, le);
    assert r[0] in multiset(r);
    forall z | z in s
      ensures le(r[0], z)
    {
      assert z in multiset(s);
      var j :| 0 <= j < |r| && r[j] == z;
      assert j == 0 || le(r[0], r[j]);
    }
  }

  /** The elements of `s` that `le` ranks level with `x`, in their order in `s`. */
  function LevelWith<T>(s: seq<T>, le: (T, T) -> bool, x: T): (r: seq<T>)
  {
    if s == [] then []
    else (if le(x, s[0]) && le(s[0], x) then [s[0]] else []) + LevelWith(s[1..], le, x)
  }

  lemma {:induction false} LevelWithAppend<T>(a: seq<T>, b: seq<T>, le: (T, T) -> bool, x: T)
    ensures LevelWith(a + b, le, x) == LevelWith(a, le, x) + LevelWith(b, le, x)
  {
    if a != [] {
      LevelWithAppend(a[1..], b, le, x);
      assert (a + b)[1..] == a[1..] + b;
    } else {
      assert a + b == b;
    }
  }

  lemma {:induction false} LevelWithNone<T>(s: seq<T>, le: (T, T) -> bool, x: T)
    requires forall z :: z in s ==> !(le(x, z) && le(z, x))
    ensures LevelWith(s, le, x) == []
  {
    if s != [] {
      LevelWithNone(s[1..], le, x);
    }
  }

  /** Inserting `y` adds it at the end of its level. */
  lemma {:induction false} InsertLevel<T(!new)>(y: T, s: seq<T>, le: (T, T) -> bool, x: T)
    requires TotalPreorder(le) && Sorted(s, le)
    ensures LevelWith(Insert(y, s, le), le, x)
         == LevelWith(s, le, x) + (if le(x, y) && le(y, x) then [y] else [])
  {
    if s == [] {
      assert Insert(y, s, le) == [y];
      assert LevelWith([y], le, x) == (if le(x, y) && le(y, x) then [y] else []) + LevelWith([], le, x);
    } else if le(s[0], y) {
      InsertLevel(y, s[1..], le, x);
      InsertLevelPast(y, s, le, x);
    } else {
      InsertLevelFront(y, s, le, x);
    }
  }

  /** Inserting `y` past the head of a list: the head's place in the level
      comes first, then the rest as the insertion into the tail leaves it. */
  lemma InsertLevelPast<T>(y: T, s: seq<T>, le: (T, T) -> bool, x: T)
    requires s != [] && le(s[0], y)
    requires LevelWith(Insert(y, s[1..], le), le, x)
          == LevelWith(s[1..], le, x) + (if le(x, y) && le(y, x) then [y] else [])
    ensures LevelWith(Insert(y, s, le), le, x)
         == LevelWith(s, le, x) + (if le(x, y) && le(y, x) then [y] else [])
  {
    var tail := if le(x, y) && le(y, x) then [y] else [];
    var head := if le(x, s[0]) && le(s[0], x) then [s[0]] else [];
    var rest := Insert(y, s[1..], le);
    assert LevelWith(s, le, x) == head + LevelWith(s[1..], le, x);
    assert Insert(y, s, le) == [s[0]] + rest;
    assert ([s[0]] + rest)[1..] == rest;
    assert LevelWith([s[0]] + rest, le, x) == head + LevelWith(rest, le, x);
    AppendAssociative(head, LevelWith(s[1..], le, x), tail);
  }

  lemma AppendAssociative<T>(a: seq<T>, b: seq<T>, c: seq<T>)
    ensures a + (b + c) == (a + b) + c
  {
  }

  /** Inserting `y` in front of a sorted list that starts above it: `y`
      is then the whole of its level. */
  lemma InsertLevelFront<T(!new)>(y: T, s: seq<T>, le: (T, T) -> bool, x: T)
    requires TotalPreorder(le) && Sorted(s, le)
    requires s != [] && !le(s[0], y)
    ensures LevelWith(Insert(y, s, le), le, x)
         == LevelWith(s, le, x) + (if le(x, y) && le(y, x) then [y] else [])
  {
    var tail := if le(x, y) && le(y, x) then [y] else [];
    assert Insert(y, s, le) == [y] + s;
    assert ([y] + s)[1..] == s;
    assert LevelWith([y] + s, le, x) == tail + LevelWith(s, le, x);
    if le(x, y) && le(y, x) {
      LevelNoneAfter(y, s, le, x);
    }
  }

  /** Nothing in a sorted list that starts above `y` is level with `y`. */
  lemma LevelNoneAfter<T(!new)>(y: T, s: seq<T>, le: (T, T) -> bool, x: T)
    requires TotalPreorder(le) && Sorted(s, le)
    requires s != [] && !le(s[0], y) && le(x, y) && le(y, x)
    ensures LevelWith(s, le, x) == []
  {
    forall z | z in s
      ensures !(le(x, z) && le(z, x))
    {
      var j :| 0 <= j < |s| && s[j] == z;
      assert le(s[0], z) by {
        if j > 0 { assert le(s[0], s[j]); }
      }
      assert !le(z, y);
    }
    LevelWithNone(s, le, x);
  }

  /** The level of `x` in `s` is the level in all but the last element,
      then the last element when it is level with `x`. */
  lemma LevelWithSnoc<T>(s: seq<T>, le: (T, T) -> bool, x: T)
    requires s != []
    ensures var last := s[|s| - 1];
      LevelWith(s, le, x) == LevelWith(s[..|s| - 1], le, x) + (if le(x, last) && le(last, x) then [last] else [])
  {
    var init, last := s[..|s| - 1], s[|s| - 1];
    assert s == init + [last];
    LevelWithAppend(init, [last], le, x);
    assert LevelWith([last], le, x) == (if le(x, last) && le(last, x) then [last] else []) + LevelWith([], le, x);
  }

  /** The sort is stable: elements ranked level with one another keep the
      order they had before the sort. */
  lemma {:induction false} SortByStable<T(!new)>(s: seq<T>, le: (T, T) -> bool, x: T)
    requires TotalPreorder(le)
    ensures LevelWith(SortBy(s, le), le, x) == LevelWith(s, le, x)
  {
    if s != [] {
      var init, last := s[..|s| - 1], s[|s| - 1];
      var sorted := SortBy(init, le);
      SortByStable(init, le, x);
      SortBySorted(init, le);
      InsertLevel(last, sorted, le, x);
      LevelWithSnoc(s, le, x);
      assert SortBy(s, le) == Insert(last, sorted, le);
    }
  }
}

=== FILE: text.dfy ===
/** The pieces of Python's `str` that the chart reader relies on: `strip()`,
    `upper()`, `split(sep, 1)`, `split(sep)[0]`, `replace`, slicing a string
    into two-character codes, and the ordering `<` that `list.sort()` uses
    on strings. */
module Text {

  /** The characters for which Python's `str.isspace()` holds; `strip()`
      with no argument removes exactly these from both ends. */
  predicate IsSpace(c: char) {
    || c == ' '
    || '\t' <= c <= '\r'
    || '\U{1c}' <= c <= '\U{1f}'
    || c == '\U{85}'
    || c == '\U{a0}'
    || c == '\U{1680}'
    || '\U{2000}' <= c <= '\U{200a}'
    || c == '\U{2028}'
    || c == '\U{2029}'
    || c == '\U{202f}'
    || c == '\U{205f}'
    || c == '\U{3000}'
  }

  /** `s` without its leading characters that satisfy `drop`. */
  function TrimStart(s: string, drop: char -> bool): (r: string)
    ensures |r| <= |s| && r == s[|s| - |r|..]
    ensures forall k :: 0 <= k < |s| - |r| ==> drop(s[k])
    ensures r == [] || !drop(r[0])
  {
    if s != [] && drop(s[0]) then TrimStart(s[1..], drop) else s
  }

  /** `s` without its trailing characters that satisfy `drop`. */
  function TrimEnd(s: string, drop: char -> bool): (r: string)
    ensures |r| <= |s| && r == s[..|r|]
    ensures forall k :: |r| <= k < |s| ==> drop(s[k])
    ensures r == [] || !drop(r[|r| - 1])
  {
    if s != [] && drop(s[|s| - 1]) then TrimEnd(s[..|s| - 1], drop) else s
  }

  /** `s` without the characters satisfying `drop` at either end. */
  function StripWith(s: string, drop: char -> bool): (r: string)
    ensures |r| <= |s|
    ensures r == [] || (!drop(r[0]) && !drop(r[|r| - 1]))
    ensures (forall k :: 0 <= k < |s| ==> !drop(s[k])) ==> r == s
  {
    TrimEnd(TrimStart(s, drop), drop)
  }

  /** What `StripWith` cuts off: the result is the slice of `s` that starts
      at `i`, and every character before it or after it is dropped. */
  lemma StripSlice(s: string, drop: char -> bool) returns (i: nat)
    ensures var r := StripWith(s, drop);
      && i + |r| <= |s|
      && r == s[i..i + |r|]
      && (forall k :: 0 <= k < i ==> drop(s[k]))
      && (forall k :: i + |r| <= k < |s| ==> drop(s[k]))
  {
    var t := TrimStart(s, drop);
    var r := TrimEnd(t, drop);
    i := |s| - |t|;
    assert t == s[i..];
    assert forall k :: i + |r| <= k < |s| ==> s[k] == t[k - i];
  }

  /** Python's `s.strip()`. */
  function Strip(s: string): (r: string)
    ensures r == [] || (!IsSpace(r[0]) && !IsSpace(r[|r| - 1]))
  {
    StripWith(s, IsSpace)
  }

  /** Python's `c.upper()` on the ASCII letters. */
  function UpperChar(c: char): (u: char)
    ensures !('a' <= u <= 'z')
    ensures 'a' <= c <= 'z' ==> 'A' <= u <= 'Z'
    ensures !('a' <= c <= 'z') ==> u == c
  {
    if 'a' <= c <= 'z' then (c as int - 32) as char else c
  }

  /** Python's `s.upper()`, for ASCII text. */
  function Upper(s: string): (r: string)
    ensures |r| == |s|
    ensures forall i :: 0 <= i < |s| ==> r[i] == UpperChar(s[i])
    ensures forall i :: 0 <= i < |r| ==> !('a' <= r[i] <= 'z')
  {
    seq(|s|, i requires 0 <= i < |s| => UpperChar(s[i]))
  }

  /** Python's `s.replace(from, to)` for single characters. */
  function Replace(s: string, from: char, to: char): (r: string)
    ensures |r| == |s|
    ensures forall i :: 0 <= i < |s| ==> r[i] == (if s[i] == from then to else s[i])
    ensures from != to ==> from !in r
  {
    seq(|s|, i requires 0 <= i < |s| => if s[i] == from then to else s[i])
  }

  /** The prefix of `s` before its first `sep`, or all of `s`: Python's
      `s.split(sep)[0]`. */
  function BeforeFirst(s: string, sep: char): (r: string)
    ensures sep !in r
    ensures r <= s
    ensures |r| < |s| ==> s[|r|] == sep
  {
    if s == [] || s[0] == sep then [] else [s[0]] + BeforeFirst(s[1..], sep)
  }

  /** Python's `s.split(sep, 1)` when `sep` occurs in `s`: the text before
      the first `sep` and the text after it. */
  function SplitOnce(s: string, sep: char): (r: (string, string))
    requires sep in s
    ensures r.0 + [sep] + r.1 == s
    ensures sep !in r.0
  {
    var head := BeforeFirst(s, sep);
    assert s == head + s[|head|..];
    (head, s[|head| + 1..])
  }

  /** A string without whitespace at either end is its own `strip()`. */
  lemma StripFixed(s: string)
    requires s == [] || (!IsSpace(s[0]) && !IsSpace(s[|s| - 1]))
    ensures Strip(s) == s
  {
  }

  /** `strip()` drops a leading space. */
  lemma StripLeading(s: string)
    requires s != [] && IsSpace(s[0])
    ensures Strip(s) == Strip(s[1..])
  {
  }

  /** `strip()` drops a trailing space after a non-space first character. */
  lemma StripTrailing(s: string)
    requires |s| >= 2 && !IsSpace(s[0]) && IsSpace(s[|s| - 1])
    ensures Strip(s) == Strip(s[..|s| - 1])
  {
    var t := s[..|s| - 1];
    assert TrimStart(s, IsSpace) == s;
    assert TrimStart(t, IsSpace) == t by { assert t[0] == s[0]; }
  }

  /** `split(sep)[0]` is the text before the first `sep`, wherever that is. */
  lemma BeforeFirstAt(s: string, sep: char, k: nat)
    requires k <= |s| && sep !in s[..k] && (k < |s| ==> s[k] == sep)
    ensures BeforeFirst(s, sep) == s[..k]
  {
  }

  /** `split(sep, 1)` cuts at the first `sep`, wherever that is. */
  lemma SplitOnceAt(s: string, sep: char, k: nat)
    requires k < |s| && s[k] == sep && sep !in s[..k]
    ensures sep in s
    ensures SplitOnce(s, sep) == (s[..k], s[k + 1..])
  {
    assert s[k] in s;
    BeforeFirstAt(s, sep, k);
  }

  /** The concatenation of a list of strings (Python's `"".join`). */
  function Concat(parts: seq<string>): string {
    if parts == [] then [] else parts[0] + Concat(parts[1..])
  }

  /** The end of the two-character code that starts at `2 * i`. */
  function PairEnd(v: string, i: nat): (e: nat)
    requires 2 * i < |v|
    ensures 2 * i < e <= |v| && e <= 2 * i + 2
  {
    if 2 * i + 2 <= |v| then 2 * i + 2 else |v|
  }

  /** Python's `[v[i:i + 2] for i in range(0, len(v), 2)]`: `v` cut into
      two-character codes, the last one a single character when `|v|` is
      odd. */
  function Pairs(v: string): (r: seq<string>)
    ensures |r| == (|v| + 1) / 2
    ensures forall i :: 0 <= i < |r| ==> 1 <= |r[i]| <= 2
    ensures |v| % 2 == 1 ==> |r[|r| - 1]| == 1
  {
    seq((|v| + 1) / 2, i requires 0 <= i < (|v| + 1) / 2 => v[2 * i..PairEnd(v, i)])
  }

  /** Cutting off the first code leaves the codes of the rest. */
  lemma PairsUnfold(v: string)
    requires |v| > 2
    ensures Pairs(v) == [v[..2]] + Pairs(v[2..])
  {
    var r, rest := Pairs(v), Pairs(v[2..]);
    forall i | 1 <= i < |r|
      ensures r[i] == rest[i - 1]
    {
      assert v[2..][2 * (i - 1)..PairEnd(v[2..], i - 1)] == v[2 * i..PairEnd(v, i)];
    }
  }

  /** Joined back together, the codes give the data string. */
  lemma {:induction false} PairsJoin(v: string)
    ensures Concat(Pairs(v)) == v
    decreases |v|
  {
    if |v| > 2 {
      PairsUnfold(v);
      PairsJoin(v[2..]);
      assert v == v[..2] + v[2..];
    } else if v != [] {
      assert Pairs(v)[0] == v[0..PairEnd(v, 0)] == v;
      assert Pairs(v) == [v];
    } else {
      assert Pairs(v) == [];
    }
  }

  /** Python's `a <= b` on strings: lexicographic by code point, a proper
      prefix coming first. */
  predicate StrLe(a: string, b: string) {
    if a == [] then true
    else if b == [] then false
    else if a[0] != b[0] then a[0] < b[0]
    else StrLe(a[1..], b[1..])
  }

  lemma {:induction false} StrLeTotal(a: string, b: string)
    ensures StrLe(a, b) || StrLe(b, a)
  {
    if a != [] && b != [] && a[0] == b[0] {
      StrLeTotal(a[1..], b[1..]);
    }
  }

  lemma {:induction false} StrLeAntisymmetric(a: string, b: string)
    requires StrLe(a, b) && StrLe(b, a)
    ensures a == b
  {
    if a != [] && b != [] {
      StrLeAntisymmetric(a[1..], b[1..]);
      assert a == [a[0]] + a[1..] && b == [b[0]] + b[1..];
    }
  }

  lemma {:induction false} StrLeTransitive(a: string, b: string, c: string)
    requires StrLe(a, b) && StrLe(b, c)
    ensures StrLe(a, c)
  {
    if a != [] && b != [] && c != [] && a[0] == b[0] == c[0] {
      StrLeTransitive(a[1..], b[1..], c[1..]);
    }
  }
}

=== FILE: timing.dfy ===
/** The second pass of `Dtx.parse`: beats to milliseconds. A prefix-sum
    table gives the beat at which each bar starts, each raw event gets a
    global beat, the events are stably sorted by beat, and a walk over them
    accumulates time under a tempo that channel `03` (hexadecimal) and
    channel `08` (a `#BPMxx` lookup) change. Channel `01` fixes when the
    background music starts; every other channel becomes a timed note, and
    the notes end sorted as `(ms, channel, wav)` tuples. Beats and times are
    exact rationals (`real`). */
module Timing {
  import opened Wrappers
  import Numbers
  import Sorting
  import Text
  import ChartLines

  type RawEvent = ChartLines.RawEvent

  /** The length multiplier of `bar`: `bar_length_changes.get(bar, 1.0)`. */
  function Mult(lengths: map<nat, real>, bar: nat): real {
    if bar in lengths then lengths[bar] else 1.0
  }

  /** Every bar-length multiplier in the chart is positive. */
  predicate PositiveLengths(lengths: map<nat, real>) {
    forall b :: b in lengths ==> lengths[b] > 0.0
  }

  /** `bar_start_beats[bar]`: the beats of all earlier bars, four per bar
      times that bar's multiplier. */
  function BarStart(lengths: map<nat, real>, bar: nat): (r: real)
    ensures PositiveLengths(lengths) ==> r >= 0.0
    ensures PositiveLengths(lengths) && bar > 0 ==> r > 0.0
  {
    if bar == 0 then 0.0 else BarStart(lengths, bar - 1) + 4.0 * Mult(lengths, bar - 1)
  }

  /** The `global_beat` of a raw event: its bar's start plus its share
      `pos / total_pos` of that bar's beats. */
  function GlobalBeat(lengths: map<nat, real>, e: RawEvent): (r: real)
    requires e.total > 0
    ensures e.pos == 0 ==> r == BarStart(lengths, e.bar)
    ensures PositiveLengths(lengths) ==> r >= BarStart(lengths, e.bar)
  {
    assert e.pos as real / e.total as real >= 0.0;
    BarStart(lengths, e.bar) + (e.pos as real / e.total as real) * (4.0 * Mult(lengths, e.bar))
  }

  /** The table's rule: bar 0 starts at beat 0, and each bar starts where
      the one before it ends, four beats times its multiplier later. */
  lemma BarStartNext(lengths: map<nat, real>, b: nat)
    ensures BarStart(lengths, 0) == 0.0
    ensures BarStart(lengths, b + 1) == BarStart(lengths, b) + 4.0 * Mult(lengths, b)
  {
  }

  /** Without length changes every bar has four beats. */
  lemma {:induction false} BarStartUniform(bar: nat)
    ensures BarStart(map[], bar) == 4.0 * bar as real
  {
    if bar > 0 {
      BarStartUniform(bar - 1);
    }
  }

  /** With positive multipliers, a later bar starts after every beat of an
      earlier one. */
  lemma {:induction false} BarStartIncreasing(lengths: map<nat, real>, b1: nat, b2: nat)
    requires PositiveLengths(lengths) && b1 < b2
    ensures BarStart(lengths, b1) < BarStart(lengths, b1 + 1) <= BarStart(lengths, b2)
    decreases b2
  {
    if b1 + 1 < b2 {
      BarStartIncreasing(lengths, b1, b2 - 1);
    }
  }

  /** `pos / total` is a fraction in [0, 1). */
  lemma Fraction(pos: nat, total: nat)
    requires pos < total
    ensures 0.0 <= pos as real / total as real < 1.0
  {
    var f := pos as real / total as real;
    assert f * total as real == pos as real;
  }

  /** A fraction in [0, 1) of a positive width, from `b`, stays below
      `b` plus the width. */
  lemma InsideWidth(b: real, g: real, c: real, f: real, w: real)
    requires 0.0 <= f < 1.0 && w > 0.0
    requires g == b + f * w && c == b + w
    ensures b <= g < c
  {
    assert w - f * w == (1.0 - f) * w;
  }

  /** With positive multipliers, an event's beat lies inside its own bar. */
  lemma GlobalBeatInBar(lengths: map<nat, real>, e: RawEvent)
    requires PositiveLengths(lengths) && e.pos < e.total
    ensures BarStart(lengths, e.bar) <= GlobalBeat(lengths, e) < BarStart(lengths, e.bar + 1)
  {
    Fraction(e.pos, e.total);
    var f, w := e.pos as real / e.total as real, 4.0 * Mult(lengths, e.bar);
    var b0 := BarStart(lengths, e.bar);
    assert BarStart(lengths, e.bar + 1) == b0 + w;
    InsideWidth(b0, GlobalBeat(lengths, e), BarStart(lengths, e.bar + 1), f, w);
  }

  /** Within one line of a bar, a later slot has a later beat. */
  lemma GlobalBeatMonotone(lengths: map<nat, real>, e1: RawEvent, e2: RawEvent)
    requires PositiveLengths(lengths)
    requires e1.bar == e2.bar && e1.total == e2.total > 0 && e1.pos < e2.pos
    ensures GlobalBeat(lengths, e1) < GlobalBeat(lengths, e2)
  {
    var t, w := e1.total as real, 4.0 * Mult(lengths, e1.bar);
    assert e1.pos as real / t < e2.pos as real / t;
    assert w > 0.0;
  }

  /** With positive multipliers, an event of an earlier bar comes before
      every event of a later bar. */
  lemma EarlierBarEarlierBeat(lengths: map<nat, real>, e1: RawEvent, e2: RawEvent)
    requires PositiveLengths(lengths)
    requires e1.pos < e1.total && e2.pos < e2.total && e1.bar < e2.bar
    ensures GlobalBeat(lengths, e1) < GlobalBeat(lengths, e2)
  {
    GlobalBeatInBar(lengths, e1);
    GlobalBeatInBar(lengths, e2);
    BarStartIncreasing(lengths, e1.bar, e2.bar);
  }

  /** A raw event annotated with its global beat. */
  datatype BeatEvent = BeatEvent(raw: RawEvent, beat: real)

  /** Every raw event annotated with its global beat. */
  function Annotate(lengths: map<nat, real>, raws: seq<RawEvent>): (evs: seq<BeatEvent>)
    requires forall i :: 0 <= i < |raws| ==> raws[i].total > 0
    ensures |evs| == |raws|
    ensures forall i :: 0 <= i < |raws| ==> evs[i].raw == raws[i]
    ensures forall i :: 0 <= i < |raws| ==> evs[i].beat == GlobalBeat(lengths, raws[i])
  {
    seq(|raws|, i requires 0 <= i < |raws| => BeatEvent(raws[i], GlobalBeat(lengths, raws[i])))
  }

  /** The sort key of `raw_events.sort(key=lambda x: x["global_beat"])`. */
  predicate BeatLe(a: BeatEvent, b: BeatEvent) {
    a.beat <= b.beat
  }

  lemma BeatLePreorder()
    ensures Sorting.TotalPreorder(BeatLe)
  {
  }

  /** The walk's variables: `current_time_s`, `current_bpm`,
      `last_event_beat`, the BGM start once the first `01` event has fixed
      it, the notes so far, and whether a division by a zero tempo has
      stopped the parse. */
  datatype WalkState = WalkState(
    timeS: real,
    bpm: real,
    lastBeat: real,
    bgmMs: Option<real>,
    notes: seq<TimedNote>,
    halted: bool)

  /** One `(time_in_ms, channel, wav_id)` entry of `timed_notes`. */
  datatype TimedNote = TimedNote(ms: real, channel: string, wav: string)

  /** The walk before the first event, at tempo `bpm`. */
  function Start(bpm: real): WalkState {
    WalkState(0.0, bpm, 0.0, None, [], false)
  }

  /** A channel that the walk turns into a note: not BGM `01`, not a tempo
      channel `03` or `08`. */
  predicate NoteChannel(ch: string) {
    ch != "01" && ch != "03" && ch != "08"
  }

  /** One event of the walk. At tempo 0 the division `60.0 / current_bpm`
      raises, which here halts the walk with its state as it was. */
  function Step(st: WalkState, ev: BeatEvent, bpmChanges: map<string, real>,
                hex: string -> Option<int>): (r: WalkState)
    ensures st.halted ==> r == st
    ensures r.halted <==> st.halted || st.bpm == 0.0
    ensures !r.halted ==> r.lastBeat == ev.beat
    ensures r.bpm != st.bpm ==> !r.halted && (ev.raw.channel == "03" || ev.raw.channel == "08")
    ensures !r.halted && ev.raw.channel == "03" ==>
      r.bpm == (if hex(ev.raw.val).Some? then hex(ev.raw.val).value as real else st.bpm)
    ensures !r.halted && ev.raw.channel == "08" ==>
      r.bpm == (if ev.raw.val in bpmChanges then bpmChanges[ev.raw.val] else st.bpm)
    ensures r.bgmMs != st.bgmMs ==> st.bgmMs.None? && ev.raw.channel == "01" && r.bgmMs == Some(r.timeS * 1000.0)
    ensures !r.halted ==>
      r.notes == st.notes + (if NoteChannel(ev.raw.channel) then [TimedNote(r.timeS * 1000.0, ev.raw.channel, ev.raw.val)] else [])
  {
    if st.halted || st.bpm == 0.0 then st.(halted := true)
    else
      var t := st.timeS + (ev.beat - st.lastBeat) * (60.0 / st.bpm);
      var ch, v := ev.raw.channel, ev.raw.val;
      var moved := st.(timeS := t, lastBeat := ev.beat);
      if ch == "01" then
        if st.bgmMs.None? then moved.(bgmMs := Some(t * 1000.0)) else moved
      else if ch == "03" then
        match hex(v)
        case Some(n) => moved.(bpm := n as real)
        case None => moved
      else if ch == "08" then
        if v in bpmChanges then moved.(bpm := bpmChanges[v]) else moved
      else
        moved.(notes := st.notes + [TimedNote(t * 1000.0, ch, v)])
  }

  /** A step that does not halt moves time by the beats since the last
      event at the current tempo: `60 / current_bpm` seconds per beat. */
  lemma StepTime(st: WalkState, ev: BeatEvent, bpmChanges: map<string, real>, hex: string -> Option<int>)
    requires !st.halted && st.bpm != 0.0
    ensures Step(st, ev, bpmChanges, hex).timeS == st.timeS + (ev.beat - st.lastBeat) * (60.0 / st.bpm)
  {
  }

  /** The walk over the first `n` events. */
  function WalkTo(st: WalkState, evs: seq<BeatEvent>, bpmChanges: map<string, real>,
                  hex: string -> Option<int>, n: nat): WalkState
    requires n <= |evs|
  {
    if n == 0 then st else Step(WalkTo(st, evs, bpmChanges, hex, n - 1), evs[n - 1], bpmChanges, hex)
  }

  /** Once halted, the walk stays as it was. */
  lemma {:induction false} HaltedStays(st: WalkState, evs: seq<BeatEvent>, bpmChanges: map<string, real>,
                                      hex: string -> Option<int>, j: nat, n: nat)
    requires j <= n <= |evs| && WalkTo(st, evs, bpmChanges, hex, j).halted
    ensures WalkTo(st, evs, bpmChanges, hex, n) == WalkTo(st, evs, bpmChanges, hex, j)
    decreases n
  {
    if j < n {
      HaltedStays(st, evs, bpmChanges, hex, j, n - 1);
    }
  }

  /** One more event is one more step. */
  lemma WalkToNext(st: WalkState, evs: seq<BeatEvent>, bpmChanges: map<string, real>,
                   hex: string -> Option<int>, i: nat)
    requires i < |evs|
    ensures WalkTo(st, evs, bpmChanges, hex, i + 1) == Step(WalkTo(st, evs, bpmChanges, hex, i), evs[i], bpmChanges, hex)
  {
  }

  /** A zero tempo halts the walk at the next event, keeping what was done. */
  lemma HaltsAt(st: WalkState, evs: seq<BeatEvent>, bpmChanges: map<string, real>,
                hex: string -> Option<int>, i: nat)
    requires i < |evs|
    requires WalkTo(st, evs, bpmChanges, hex, i).bpm == 0.0
    ensures WalkAll(st, evs, bpmChanges, hex) == WalkTo(st, evs, bpmChanges, hex, i).(halted := true)
  {
    HaltedStays(st, evs, bpmChanges, hex, i + 1, |evs|);
  }

  /** The walk over every event, first to last. */
  function WalkAll(st: WalkState, evs: seq<BeatEvent>, bpmChanges: map<string, real>,
                   hex: string -> Option<int>): WalkState
  {
    WalkTo(st, evs, bpmChanges, hex, |evs|)
  }

  /** The time, in seconds, the walk gives event `k`. */
  function EventTime(st: WalkState, evs: seq<BeatEvent>, bpmChanges: map<string, real>,
                     hex: string -> Option<int>, k: nat): real
    requires k < |evs|
  {
    WalkTo(st, evs, bpmChanges, hex, k + 1).timeS
  }

  /** The walk over the first `n` events reads no later event. */
  lemma {:induction false} WalkToPrefix(st: WalkState, evs1: seq<BeatEvent>, evs2: seq<BeatEvent>,
                                       bpmChanges: map<string, real>, hex: string -> Option<int>, n: nat)
    requires n <= |evs1| && n <= |evs2| && evs1[..n] == evs2[..n]
    ensures WalkTo(st, evs1, bpmChanges, hex, n) == WalkTo(st, evs2, bpmChanges, hex, n)
  {
    if n > 0 {
      assert evs1[..n - 1] == evs1[..n][..n - 1] && evs2[..n - 1] == evs2[..n][..n - 1];
      assert evs1[n - 1] == evs1[..n][n - 1] && evs2[n - 1] == evs2[..n][n - 1];
      WalkToPrefix(st, evs1, evs2, bpmChanges, hex, n - 1);
    }
  }

  /** The time a step gives an event depends on its beat, not on its
      channel or code. */
  lemma StepTimeByBeat(st: WalkState, e1: BeatEvent, e2: BeatEvent,
                       bpmChanges: map<string, real>, hex: string -> Option<int>)
    requires e1.beat == e2.beat
    ensures Step(st, e1, bpmChanges, hex).timeS == Step(st, e2, bpmChanges, hex).timeS
  {
  }

  /** `ev` sets the tempo to `n`: a `03` event whose code reads as the
      hexadecimal `n`, or an `08` event whose code `#BPMxx` defines as `n`. */
  predicate SetsTempo(ev: BeatEvent, bpmChanges: map<string, real>, hex: string -> Option<int>, n: real) {
    var ch, v := ev.raw.channel, ev.raw.val;
    || (ch == "03" && hex(v).Some? && n == hex(v).value as real)
    || (ch == "08" && v in bpmChanges && n == bpmChanges[v])
  }

  /** The new tempo of a `03` or `08` event times the interval after it:
      the next event comes `60 / n` seconds per beat later, where `n` is the
      tempo the event set. */
  lemma {:induction false} TempoChangeApplies(st: WalkState, evs: seq<BeatEvent>, bpmChanges: map<string, real>,
                           hex: string -> Option<int>, k: nat, n: real)
    requires k + 1 < |evs|
    requires !WalkTo(st, evs, bpmChanges, hex, k).halted && WalkTo(st, evs, bpmChanges, hex, k).bpm != 0.0
    requires SetsTempo(evs[k], bpmChanges, hex, n) && n != 0.0
    ensures EventTime(st, evs, bpmChanges, hex, k + 1)
         == EventTime(st, evs, bpmChanges, hex, k) + (evs[k + 1].beat - evs[k].beat) * (60.0 / n)
  {
    var p := WalkTo(st, evs, bpmChanges, hex, k);
    var q := Step(p, evs[k], bpmChanges, hex);
    var r := Step(q, evs[k + 1], bpmChanges, hex);
    assert WalkTo(st, evs, bpmChanges, hex, k + 1) == q by {
      WalkToNext(st, evs, bpmChanges, hex, k);
    }
    assert WalkTo(st, evs, bpmChanges, hex, k + 2) == r by {
      WalkToNext(st, evs, bpmChanges, hex, k + 1);
    }
    TempoStep(p, evs[k], evs[k + 1], bpmChanges, hex, n);
  }

  /** Two steps, the first at a tempo event that sets tempo `n`. */
  lemma TempoStep(p: WalkState, e1: BeatEvent, e2: BeatEvent, bpmChanges: map<string, real>,
                  hex: string -> Option<int>, n: real)
    requires !p.halted && p.bpm != 0.0 && n != 0.0
    requires SetsTempo(e1, bpmChanges, hex, n)
    ensures var q := Step(p, e1, bpmChanges, hex);
      Step(q, e2, bpmChanges, hex).timeS == q.timeS + (e2.beat - e1.beat) * (60.0 / n)
  {
    var q := Step(p, e1, bpmChanges, hex);
    assert !q.halted && q.bpm == n && q.lastBeat == e1.beat;
    StepTime(q, e2, bpmChanges, hex);
  }

  /** The time of event `k` depends only on the events before it and on its
      own beat: a tempo change acts on the intervals after its own event,
      never on its own time or on anything earlier. */
  lemma Causality(st: WalkState, evs1: seq<BeatEvent>, evs2: seq<BeatEvent>,
                  bpmChanges: map<string, real>, hex: string -> Option<int>, k: nat)
    requires k < |evs1| && k < |evs2|
    requires evs1[..k] == evs2[..k] && evs1[k].beat == evs2[k].beat
    ensures EventTime(st, evs1, bpmChanges, hex, k) == EventTime(st, evs2, bpmChanges, hex, k)
  {
    WalkToPrefix(st, evs1, evs2, bpmChanges, hex, k);
    StepTimeByBeat(WalkTo(st, evs1, bpmChanges, hex, k), evs1[k], evs2[k], bpmChanges, hex);
  }

  /** A running walk at tempo `b` whose time is its last beat over the
      tempo. */
  predicate AtTempo(r: WalkState, b: real)
    requires b != 0.0
  {
    !r.halted && r.bpm == b && r.timeS == r.lastBeat * (60.0 / b)
  }

  /** The walk at one constant tempo `b` never halts, and time is the last
      beat over the tempo. */
  lemma {:induction false} ConstantTempoState(b: real, evs: seq<BeatEvent>, bpmChanges: map<string, real>,
                                             hex: string -> Option<int>, n: nat)
    requires b != 0.0 && n <= |evs|
    requires forall i :: 0 <= i < |evs| ==> evs[i].raw.channel != "03" && evs[i].raw.channel != "08"
    ensures AtTempo(WalkTo(Start(b), evs, bpmChanges, hex, n), b)
    ensures n > 0 ==> WalkTo(Start(b), evs, bpmChanges, hex, n).lastBeat == evs[n - 1].beat
  {
    if n > 0 {
      ConstantTempoState(b, evs, bpmChanges, hex, n - 1);
      var p := WalkTo(Start(b), evs, bpmChanges, hex, n - 1);
      var ev := evs[n - 1];
      assert ev.raw.channel != "03" && ev.raw.channel != "08";
      ConstantTempoStep(b, p, ev, bpmChanges, hex);
      assert WalkTo(Start(b), evs, bpmChanges, hex, n) == Step(p, ev, bpmChanges, hex);
    }
  }

  lemma ConstantTempoStep(b: real, p: WalkState, ev: BeatEvent, bpmChanges: map<string, real>,
                          hex: string -> Option<int>)
    requires b != 0.0 && AtTempo(p, b)
    requires ev.raw.channel != "03" && ev.raw.channel != "08"
    ensures AtTempo(Step(p, ev, bpmChanges, hex), b)
    ensures Step(p, ev, bpmChanges, hex).lastBeat == ev.beat
  {
    StepTime(p, ev, bpmChanges, hex);
    var q := 60.0 / b;
    assert p.lastBeat * q + (ev.beat - p.lastBeat) * q == ev.beat * q;
  }

  /** At a constant tempo `b`, event `k` comes `global_beat * 60 / b`
      seconds after the start. */
  lemma ConstantTempo(b: real, evs: seq<BeatEvent>, bpmChanges: map<string, real>,
                      hex: string -> Option<int>, k: nat)
    requires b != 0.0 && k < |evs|
    requires forall i :: 0 <= i < |evs| ==> evs[i].raw.channel != "03" && evs[i].raw.channel != "08"
    ensures EventTime(Start(b), evs, bpmChanges, hex, k) == evs[k].beat * (60.0 / b)
  {
    ConstantTempoState(b, evs, bpmChanges, hex, k + 1);
  }

  /** An example: at 120 BPM, slot 4 of 16 in the first bar is one beat
      in, which is 500 ms. */
  lemma ExampleHalfSecond()
    ensures var e := ChartLines.RawEvent(0, "11", 4, 16, "01");
      && GlobalBeat(map[], e) == 1.0
      && WalkAll(Start(120.0), [BeatEvent(e, 1.0)], map[], Hex).notes == [TimedNote(500.0, "11", "01")]
  {
    var e := ChartLines.RawEvent(0, "11", 4, 16, "01");
    assert BarStart(map[], 0) == 0.0;
    var ev, evs := BeatEvent(e, 1.0), [BeatEvent(e, 1.0)];
    var st0 := WalkTo(Start(120.0), evs, map[], Hex, 0);
    assert st0 == Start(120.0);
    assert WalkAll(Start(120.0), evs, map[], Hex) == Step(st0, evs[0], map[], Hex);
    assert "11"[0] != "01"[0] && "11"[0] != "03"[0] && "11"[0] != "08"[0];
    StepTime(Start(120.0), ev, map[], Hex);
    assert 60.0 / 120.0 == 0.5;
  }

  /** A tempo every tempo event leaves positive. */
  predicate PositiveTempo(ev: BeatEvent, bpmChanges: map<string, real>, hex: string -> Option<int>) {
    && (ev.raw.channel == "03" && hex(ev.raw.val).Some? ==> hex(ev.raw.val).value > 0)
    && (ev.raw.channel == "08" && ev.raw.val in bpmChanges ==> bpmChanges[ev.raw.val] > 0.0)
  }

  /** Notes in order of time, none later than `timeS`. */
  predicate NotesInOrder(notes: seq<TimedNote>, timeS: real) {
    && (forall i, j :: 0 <= i < j < |notes| ==> notes[i].ms <= notes[j].ms)
    && (forall i :: 0 <= i < |notes| ==> notes[i].ms <= timeS * 1000.0)
  }

  /** A walk state whose tempo is positive and that has not halted. */
  predicate Running(st: WalkState) {
    !st.halted && st.bpm > 0.0
  }

  /** One step with a positive tempo and a beat not before the last one
      moves time forward, or leaves it, and keeps the notes in order. */
  lemma StepForward(st: WalkState, ev: BeatEvent, bpmChanges: map<string, real>, hex: string -> Option<int>)
    requires Running(st) && PositiveTempo(ev, bpmChanges, hex) && st.lastBeat <= ev.beat
    requires NotesInOrder(st.notes, st.timeS)
    ensures var r := Step(st, ev, bpmChanges, hex);
      Running(r) && st.timeS <= r.timeS && NotesInOrder(r.notes, r.timeS)
  {
    StepTime(st, ev, bpmChanges, hex);
    var q := 60.0 / st.bpm;
    assert q > 0.0;
    assert (ev.beat - st.lastBeat) * q >= 0.0;
    var r := Step(st, ev, bpmChanges, hex);
    assert st.timeS * 1000.0 <= r.timeS * 1000.0;
  }

  /** The walk from a running state over events in order of beat, every
      tempo positive. */
  predicate ForwardWalk(st: WalkState, evs: seq<BeatEvent>, bpmChanges: map<string, real>,
                        hex: string -> Option<int>)
  {
    && Running(st) && NotesInOrder(st.notes, st.timeS)
    && (forall i :: 0 <= i < |evs| ==> PositiveTempo(evs[i], bpmChanges, hex))
    && Sorting.Sorted(evs, BeatLe)
    && (evs != [] ==> st.lastBeat <= evs[0].beat)
  }

  /** With every tempo positive and the events in order of beat, time never
      runs backwards: the walk never halts and its notes come out in order
      of time. */
  lemma {:induction false} WalkForward(st: WalkState, evs: seq<BeatEvent>, bpmChanges: map<string, real>,
                                      hex: string -> Option<int>, n: nat)
    requires ForwardWalk(st, evs, bpmChanges, hex) && n <= |evs|
    ensures var r := WalkTo(st, evs, bpmChanges, hex, n);
      && Running(r) && st.timeS <= r.timeS && NotesInOrder(r.notes, r.timeS)
      && (n > 0 ==> r.lastBeat == evs[n - 1].beat)
  {
    if n > 0 {
      WalkForward(st, evs, bpmChanges, hex, n - 1);
      assert n > 1 ==> BeatLe(evs[n - 2], evs[n - 1]);
      StepForward(WalkTo(st, evs, bpmChanges, hex, n - 1), evs[n - 1], bpmChanges, hex);
    }
  }

  /** ... so with every tempo positive and the events in order of beat,
      later events never get earlier times. */
  lemma {:induction false} TimesNonDecreasing(st: WalkState, evs: seq<BeatEvent>, bpmChanges: map<string, real>,
                                             hex: string -> Option<int>, j: nat, k: nat)
    requires ForwardWalk(st, evs, bpmChanges, hex) && j <= k < |evs|
    ensures EventTime(st, evs, bpmChanges, hex, j) <= EventTime(st, evs, bpmChanges, hex, k)
    decreases k
  {
    if j < k {
      TimesNonDecreasing(st, evs, bpmChanges, hex, j, k - 1);
      WalkForward(st, evs, bpmChanges, hex, k);
      assert BeatLe(evs[k - 1], evs[k]);
      StepForward(WalkTo(st, evs, bpmChanges, hex, k), evs[k], bpmChanges, hex);
    }
  }

  /** How many of the first `n` events are on a note channel. */
  function NoteCount(evs: seq<BeatEvent>, n: nat): (c: nat)
    requires n <= |evs|
    ensures c <= n
  {
    if n == 0 then 0
    else NoteCount(evs, n - 1) + (if NoteChannel(evs[n - 1].raw.channel) then 1 else 0)
  }

  /** A note event counts before every later event. */
  lemma {:induction false} NoteCountGrows(evs: seq<BeatEvent>, j: nat, k: nat)
    requires j < k <= |evs|
    ensures NoteCount(evs, j) + (if NoteChannel(evs[j].raw.channel) then 1 else 0) <= NoteCount(evs, k)
    decreases k
  {
    if j + 1 < k {
      NoteCountGrows(evs, j, k - 1);
    }
  }

  /** The walk keeps the notes it started with and adds one per note event,
      all on note channels. */
  lemma {:induction false} WalkNotesShape(st: WalkState, evs: seq<BeatEvent>, bpmChanges: map<string, real>,
                                         hex: string -> Option<int>, n: nat)
    requires n <= |evs| && !WalkTo(st, evs, bpmChanges, hex, n).halted
    ensures var r, m := WalkTo(st, evs, bpmChanges, hex, n), |st.notes|;
      && |r.notes| == m + NoteCount(evs, n)
      && r.notes[..m] == st.notes
      && (forall i :: m <= i < |r.notes| ==> NoteChannel(r.notes[i].channel))
  {
    if n > 0 {
      WalkNotesShape(st, evs, bpmChanges, hex, n - 1);
      var p := WalkTo(st, evs, bpmChanges, hex, n - 1);
      var r := WalkTo(st, evs, bpmChanges, hex, n);
      assert r.notes[..|st.notes|] == p.notes[..|st.notes|];
    }
  }

  /** A later walk state has not halted if the final one has not, and its
      notes extend the earlier ones. */
  lemma {:induction false} NotesKept(st: WalkState, evs: seq<BeatEvent>, bpmChanges: map<string, real>,
                                    hex: string -> Option<int>, j: nat, n: nat)
    requires j <= n <= |evs| && !WalkTo(st, evs, bpmChanges, hex, n).halted
    ensures var p, r := WalkTo(st, evs, bpmChanges, hex, j), WalkTo(st, evs, bpmChanges, hex, n);
      && !p.halted && |p.notes| <= |r.notes|
      && forall i :: 0 <= i < |p.notes| ==> r.notes[i] == p.notes[i]
    decreases n
  {
    if j < n {
      NotesKept(st, evs, bpmChanges, hex, j, n - 1);
    }
  }

  /** The note of event `k` sits at the index that counts the note events
      before it, with that event's time, channel and code. */
  lemma WalkNoteAt(st: WalkState, evs: seq<BeatEvent>, bpmChanges: map<string, real>,
                   hex: string -> Option<int>, k: nat)
    requires !WalkAll(st, evs, bpmChanges, hex).halted
    requires k < |evs| && NoteChannel(evs[k].raw.channel)
    ensures var r, i := WalkAll(st, evs, bpmChanges, hex), |st.notes| + NoteCount(evs, k);
      && i < |r.notes|
      && r.notes[i] == TimedNote(EventTime(st, evs, bpmChanges, hex, k) * 1000.0, evs[k].raw.channel, evs[k].raw.val)
  {
    NotesKept(st, evs, bpmChanges, hex, k + 1, |evs|);
    NotesKept(st, evs, bpmChanges, hex, k, k + 1);
    WalkNotesShape(st, evs, bpmChanges, hex, k);
  }

  /** Channel routing: a walk that does not halt appends one note per event
      on a note channel, in order, at that event's time, and nothing for
      channels `01`, `03` and `08`. Distinct note events get distinct
      indices, so no event is dropped or doubled. */
  lemma WalkRouting(st: WalkState, evs: seq<BeatEvent>, bpmChanges: map<string, real>,
                    hex: string -> Option<int>)
    requires !WalkAll(st, evs, bpmChanges, hex).halted
    ensures var r, m := WalkAll(st, evs, bpmChanges, hex), |st.notes|;
      && |r.notes| == m + NoteCount(evs, |evs|)
      && r.notes[..m] == st.notes
      && (forall i :: m <= i < |r.notes| ==> NoteChannel(r.notes[i].channel))
      && (forall k :: 0 <= k < |evs| && NoteChannel(evs[k].raw.channel) ==>
            m + NoteCount(evs, k) < |r.notes|
            && r.notes[m + NoteCount(evs, k)]
               == TimedNote(EventTime(st, evs, bpmChanges, hex, k) * 1000.0, evs[k].raw.channel, evs[k].raw.val))
      && (forall j, k :: 0 <= j < k < |evs| && NoteChannel(evs[j].raw.channel) ==>
            NoteCount(evs, j) < NoteCount(evs, k))
  {
    WalkNotesShape(st, evs, bpmChanges, hex, |evs|);
    forall k | 0 <= k < |evs| && NoteChannel(evs[k].raw.channel) {
      WalkNoteAt(st, evs, bpmChanges, hex, k);
    }
    forall j, k | 0 <= j < k < |evs| && NoteChannel(evs[j].raw.channel) {
      NoteCountGrows(evs, j, k);
    }
  }

  /** The index of the first of the first `n` events on `ch`, if any. */
  function FirstOnTo(evs: seq<BeatEvent>, ch: string, n: nat): (r: Option<nat>)
    requires n <= |evs|
    ensures r.Some? ==> r.value < n && evs[r.value].raw.channel == ch
    ensures r.Some? ==> forall j :: 0 <= j < r.value ==> evs[j].raw.channel != ch
    ensures r.None? ==> forall j :: 0 <= j < n ==> evs[j].raw.channel != ch
  {
    if n == 0 then None
    else
      match FirstOnTo(evs, ch, n - 1)
      case Some(k) => Some(k)
      case None => if evs[n - 1].raw.channel == ch then Some(n - 1) else None
  }

  /** `bgm_start_time_ms` is the time of the first `01` event, and stays
      unset when there is none. */
  lemma {:induction false} BgmStart(st: WalkState, evs: seq<BeatEvent>, bpmChanges: map<string, real>,
                                   hex: string -> Option<int>, n: nat)
    requires n <= |evs| && st.bgmMs.None? && !WalkTo(st, evs, bpmChanges, hex, n).halted
    ensures WalkTo(st, evs, bpmChanges, hex, n).bgmMs
         == match FirstOnTo(evs, "01", n)
            case None => None
            case Some(k) => Some(EventTime(st, evs, bpmChanges, hex, k) * 1000.0)
  {
    if n > 0 {
      BgmStart(st, evs, bpmChanges, hex, n - 1);
    }
  }

  /** Python's tuple order on `(ms, channel, wav)`, which `timed_notes.sort()` uses. */
  predicate NoteLe(a: TimedNote, b: TimedNote) {
    || a.ms < b.ms
    || (a.ms == b.ms && a.channel != b.channel && Text.StrLe(a.channel, b.channel))
    || (a.ms == b.ms && a.channel == b.channel && Text.StrLe(a.wav, b.wav))
  }

  lemma NoteLePreorder()
    ensures Sorting.TotalPreorder(NoteLe)
  {
    forall a: TimedNote, b: TimedNote
      ensures NoteLe(a, b) || NoteLe(b, a)
    {
      Text.StrLeTotal(a.channel, b.channel);
      Text.StrLeTotal(a.wav, b.wav);
    }
    forall a: TimedNote, b: TimedNote, c: TimedNote | NoteLe(a, b) && NoteLe(b, c)
      ensures NoteLe(a, c)
    {
      if a.ms == b.ms == c.ms {
        if a.channel != b.channel && b.channel != c.channel {
          Text.StrLeTransitive(a.channel, b.channel, c.channel);
          if a.channel == c.channel {
            Text.StrLeAntisymmetric(a.channel, b.channel);
          }
        } else if a.channel == b.channel == c.channel {
          Text.StrLeTransitive(a.wav, b.wav, c.wav);
        }
      }
    }
  }

  /** `int(value, 16)`, the reader of channel-`03` tempos. */
  function Hex(v: string): Option<int> {
    Numbers.ParseInt(v, 16)
  }

  /** What the two passes leave: the sorted notes and the BGM start. */
  datatype Timeline = Timeline(notes: seq<TimedNote>, bgmStartMs: real)

  /** The events of a chart in the order the walk takes them. */
  function SortedEvents(lengths: map<nat, real>, raws: seq<RawEvent>): seq<BeatEvent>
    requires forall i :: 0 <= i < |raws| ==> raws[i].total > 0
  {
    Sorting.SortBy(Annotate(lengths, raws), BeatLe)
  }

  /** The timeline of a chart, or `None` when a zero tempo makes the
      walk divide by zero. */
  function BuildTimeline(defs: ChartLines.Defs, raws: seq<RawEvent>): (r: Option<Timeline>)
    requires forall i :: 0 <= i < |raws| ==> raws[i].total > 0
  {
    var w := WalkAll(Start(defs.bpm), SortedEvents(defs.barLengthChanges, raws), defs.bpmChanges, Hex);
    if w.halted then None
    else Some(Timeline(Sorting.SortBy(w.notes, NoteLe), w.bgmMs.GetOr(0.0)))
  }

  /** The timeline holds the walk's notes, sorted as tuples (so in order of
      time), none of them on channel `01`, `03` or `08`, one for each event
      on a note channel; the BGM start is that of the first `01` event, or
      0 without one. */
  lemma TimelineSpec(defs: ChartLines.Defs, raws: seq<RawEvent>)
    requires forall i :: 0 <= i < |raws| ==> raws[i].total > 0
    requires BuildTimeline(defs, raws).Some?
    ensures var t, evs := BuildTimeline(defs, raws).value, SortedEvents(defs.barLengthChanges, raws);
      var w := WalkAll(Start(defs.bpm), evs, defs.bpmChanges, Hex);
      && Sorting.Sorted(t.notes, NoteLe)
      && (forall i, j :: 0 <= i < j < |t.notes| ==> t.notes[i].ms <= t.notes[j].ms)
      && multiset(t.notes) == multiset(w.notes)
      && |t.notes| == NoteCount(evs, |evs|)
      && (forall n :: n in t.notes ==> NoteChannel(n.channel))
      && t.bgmStartMs == match FirstOnTo(evs, "01", |evs|)
                         case None => 0.0
                         case Some(k) => EventTime(Start(defs.bpm), evs, defs.bpmChanges, Hex, k) * 1000.0
  {
    var evs := SortedEvents(defs.barLengthChanges, raws);
    var w := WalkAll(Start(defs.bpm), evs, defs.bpmChanges, Hex);
    var t := BuildTimeline(defs, raws).value;
    NoteLePreorder();
    Sorting.SortBySorted(w.notes, NoteLe);
    WalkRouting(Start(defs.bpm), evs, defs.bpmChanges, Hex);
    BgmStart(Start(defs.bpm), evs, defs.bpmChanges, Hex, |evs|);
    forall n | n in t.notes
      ensures NoteChannel(n.channel)
    {
      assert n in multiset(t.notes);
      assert n in w.notes;
    }
    forall i, j | 0 <= i < j < |t.notes|
      ensures t.notes[i].ms <= t.notes[j].ms
    {
      assert NoteLe(t.notes[i], t.notes[j]);
    }
  }
}

=== FILE: wrappers.dfy ===
/** The optional value used wherever the Python code returns `None` or
    swallows an exception. */
module Wrappers {

  datatype Option<+T> = None | Some(value: T) {

    /** The value held, or `default` when there is none (Python's `d.get(k, default)`). */
    function GetOr(default: T): T {
      match this
      case Some(v) => v
      case None => default
    }
  }
}
